=== FILE: README.md ===
# Juriste Virtuel — a Dafny model of the offline proxy and the chat endpoints

Juriste Virtuel is a legal question-answering assistant. A page posts a
question, a Flask server forwards it to a chat-completion service, and the
answer comes back as JSON. This project models three parts of it and proves
properties about them:

- **The service worker** (`static/sw.js`). It is an offline caching proxy
  with these pieces:
  - routing: a GET whose URL contains `/ask` is network-first, any other GET
    is cache-first, and anything else is not intercepted;
  - the synthesised French offline answer;
  - the asset manifest cached at install;
  - eviction of old cache generations at activate;
  - the small `message`, `push` and `notificationclick` rules.
- **The mobile JSON API** (`app_mobile.py`):
  - `/api/chat`, with its CORS preflight, question validation, success
    envelope and mapping of upstream exceptions to status and code;
  - `/api/feedback` rating validation;
  - the 404/500 handlers;
  - the `PORT` setting.
- **The web app** (`app.py`): `/ask`, the not-found fallback of the Markdown
  loader, and the `PORT` fallback to 5000.

Modules:

| file | module | what it holds |
|---|---|---|
| `wrappers.dfy` | `Wrappers` | `Option` |
| `text.dfy` | `Text` | `String.prototype.includes`, decimal digits, join |
| `json.dfy` | `Json` | JSON values, last-duplicate-wins member lookup, JS and Python truthiness, `JSON.stringify` of string fields |
| `fetch.dfy` | `Fetch` | requests, responses, network outcomes, URL resolution |
| `cache_store.dfy` | `CacheStore` | the Cache Storage: ordered named generations of URL→response maps, `match`, `open`, `put`, `delete` |
| `offline.dfy` | `Offline` | the offline message table, the language stub, the offline JSON envelope |
| `strategies.dfy` | `Strategies` | the `fetch` listener: routing, network-first, cache-first |
| `lifecycle.dfy` | `Lifecycle` | `install`, `activate`, `message`, `push`, `notificationclick` |
| `worker.dfy` | `Worker` | one dispatch over all events, and a run over a sequence of events |
| `python.dfy` | `Python` | `str.strip`, `str()`/`repr()` of JSON values, `int()` on text |
| `flask.dfy` | `Flask` | view replies, `get_json(...) or {}`, the question field, the upstream oracle |
| `mobile_api.dfy` | `MobileApi` | `app_mobile.py` |
| `web_app.dfy` | `WebApp` | `app.py` |

Some things are parameters of the model rather than computed by it:

- the network (a `NetOutcome` per request);
- whether a Cache Storage promise rejects;
- the completion service (`Upstream`: a content, or an exception with its
  classes);
- the file system (`FileOutcome`);
- the Markdown renderer (a function);
- the current time (the timestamp text).

## Behaviour worth knowing

These follow from the code as written.

- **`caches.match` searches every generation.** It looks through all
  generations in creation order, not only the current one. So until
  `activate` runs, responses cached by an older version can still be served
  (`CacheStore.Match`).
- **The chat call is never intercepted.** `/ask` on the web app accepts only
  POST, and the worker ignores every request that is not a GET. The
  network-first path therefore applies only to GETs whose URL happens to
  contain `/ask`. Examples are a query string holding `/ask`, or a host
  starting with `ask` (`Strategies.MarkerInQueryIsApiCall`,
  `Strategies.AskHostIsApiCall`).
- **The offline answer is always French.** The language detector always
  answers `fr`, so the synthesised reply never uses the other nine
  messages.
- **One opaque asset voids the whole install.** The install builds `no-cors`
  requests. For the two cross-origin stylesheets such a fetch yields an
  opaque response with status 0, and `Cache.addAll` refuses a batch with any
  non-ok status. That error is swallowed, so under those conditions install
  caches nothing at all (`Lifecycle.OpaqueAssetVoidsInstall`).
- **The notification actions are `explore` and `close`.** Only `explore`
  opens a window.
- **The `!response` test in cache-first never fires.** A resolved `fetch`
  always yields a response.
- **The two servers treat `PORT` differently.** The web app falls back to
  5000 on an empty or non-numeric `PORT`. The mobile app's
  `int(os.environ.get("PORT", 5000))` raises instead, and the server does
  not start. Both read the ASCII separators U+001C–U+001F as a bad number,
  although `str.strip()` treats them as whitespace.
- **Bad bodies crash `/ask` but not the mobile chat.** The web app reads the
  question outside its `try`. A JSON body that is truthy but not an object
  therefore escapes the view on the web app. The mobile chat turns the same
  body into an `INTERNAL_ERROR` reply.

## Model

| member | source | states |
|---|---|---|
| Text.ContainsIffOccurs | static/sw.js:55 | `includes` holds exactly when the marker occurs at some index of the URL |
| Json.Lookup | app_mobile.py:92-95 | member lookup yields a value only for a key present in the object, and then the value of its last occurrence |
| Python.Strip | app_mobile.py:93 | the stripped text is a contiguous part of the input, with whitespace before and after it, and no whitespace at either edge |
| Python.StripEmptyIffAllSpace | app_mobile.py:97 | stripping leaves nothing exactly when every character is whitespace |
| Python.StripIdempotent | app_mobile.py:93 | stripping twice is stripping once |
| Python.Repr | app_mobile.py:93 | `repr` of an array or object is non-empty with no whitespace at either edge |
| Python.Str | app_mobile.py:93 | `str` of a string is the string itself; of anything else, non-empty text starting with a non-space |
| Python.StrStripEmpty | app_mobile.py:93-97 | `str(v).strip()` is empty exactly when `v` is a string made only of whitespace |
| Python.ParseInt | app_mobile.py:223 | `int()` on text succeeds only on text that is not blank and holds none of U+001C–U+001F, which `str.isspace()` counts as whitespace but `int()` does not skip |
| Python.ParseIntRejects | app_mobile.py:223 | a character that is not a digit, `_`, a sign or whitespace `int()` skips makes `int()` fail, wherever it stands |
| Python.ParseSigned | app_mobile.py:223 | the stripped text parses exactly when it is one digit group (digits with single underscores between digits) of at most 4300 digits, optionally after a `+` or `-` |
| Python.ParseSignedTooLong | app_mobile.py:223 | the decimal text of an integer of more than 4300 digits is refused, signed or not |
| Python.DecimalEdges | app_mobile.py:223 | the decimal text of an integer is non-empty, made of digits and a minus sign only, ends in a digit and has no whitespace at either edge |
| Python.ParseSignedDecimal | app_mobile.py:223 | parsing the unpadded decimal text of any integer of at most 4300 digits gives that integer back |
| Python.ParseIntRoundTrip | app_mobile.py:223 | `int()` on the decimal text of any integer of at most 4300 digits, padded with whitespace that `int()` skips, gives that integer back |
| Python.TrailingSpacesOfSuffix | app_mobile.py:93 | whitespace closing a suffix of a text closes the text |
| Python.StripCore | app_mobile.py:93 | the slice between leading and trailing whitespace is the stripped text, with whitespace all around it |
| Python.StripClean | app_mobile.py:93 | text with no whitespace at either edge strips to itself |
| Python.StripPadded | app.py:95 | stripping whitespace padding off text with no edge whitespace recovers the text |
| CacheStore.IndexOf | static/sw.js:16 | the generation with a given name is the first one with that name, or there is none |
| CacheStore.Match | static/sw.js:82 | a response is found exactly when some generation holds the URL |
| CacheStore.MatchFirst | static/sw.js:82 | the response found is the one of the first generation that holds the URL |
| CacheStore.MatchAgrees | static/sw.js:82 | two stores that agree on a URL generation by generation, where one extends the other, match it alike |
| CacheStore.OnlyTouchesTransitive | static/sw.js:99-101 | confining changes to one generation composes |
| CacheStore.OnlyTouchesKeepsOthers | static/sw.js:99-101 | after a change confined to one generation, every other generation is one that was there before |
| CacheStore.Open | static/sw.js:16 | opening yields the named generation, creating it empty at the end only if it is missing, and changes nothing else |
| CacheStore.Put | static/sw.js:99-101 | a put adds the URL to the named generation's keys and changes no other generation |
| CacheStore.PutKeepsOtherUrls | static/sw.js:99-101 | a put changes what no other URL matches |
| CacheStore.PutThenMatch | static/sw.js:99-101 | after putting a URL that no generation held, matching it gives the response put |
| CacheStore.Delete | static/sw.js:36 | deletion removes exactly the generations with that name |
| Offline.OfflineMessage | static/sw.js:129-144 | a known code gets its own table entry; an omitted or unknown code gets the French text; the result is always a non-empty table entry |
| Offline.MessageTableIsExact | static/sw.js:130-141 | the table's keys are exactly the ten language codes |
| Offline.OfflineMessageDefaultsOnlyForUnknownCodes | static/sw.js:143 | a code gets the French default exactly when it is `fr` or not in the table |
| Offline.TranslationsDiffer | static/sw.js:131-140 | each of the nine translations differs from the French text |
| Offline.LanguageOf | static/sw.js:117-126 | the detected language is `fr` whatever the request, on the normal and on the exception path |
| Offline.DetectionIgnoresRequest | static/sw.js:117-126 | two requests get the same language, a code of the table whose message is the French text |
| Offline.OfflineEnvelope | static/sw.js:65-75 | the fallback is a status-200 JSON response whose body is `{"answer": <French message>, "detected_language": "fr"}` |
| Strategies.Route | static/sw.js:49-55 | not a GET: pass through; a GET containing `/ask` anywhere in its URL: network-first; any other GET: cache-first |
| Strategies.NetworkFirstReply | static/sw.js:56-76 | the network response is returned unchanged exactly when it arrived with status 200; otherwise the offline envelope |
| Strategies.OfflinePage | static/sw.js:107-112 | a page navigation gets the response cached for the origin's root, or nothing when there is none; any other destination gets nothing |
| Strategies.CacheFirstReply | static/sw.js:81-113 | these cases:<br>- a hit is served without the network;<br>- a miss returns whatever the network delivered;<br>- only a basic 200 is stored, and only under its own URL;<br>- a failed lookup or fetch gives the offline page rule |
| Strategies.HandleFetch | static/sw.js:46-114 | non-GETs are not handled; only the API path synthesises; only cache-first changes the store, and only under the request's URL |
| Strategies.NonGetPassesThrough | static/sw.js:50-52 | a request that is not a GET is never answered by the worker and leaves the store alone |
| Strategies.MarkerInQueryIsApiCall | static/sw.js:55 | a GET with `/ask` only in its query string is routed network-first |
| Strategies.AskHostIsApiCall | static/sw.js:55 | a GET to a host starting with `ask` is routed network-first |
| Strategies.RouteIgnoresDestination | static/sw.js:50-55 | routing does not depend on the request's destination |
| Strategies.NetworkFailuresLookAlike | static/sw.js:57-75 | on the API path a non-200 response and a network error give the same reply, the offline envelope |
| Strategies.CacheHitIgnoresNetwork | static/sw.js:82-87 | a cache hit is answered the same whatever the network would do |
| Strategies.RepeatAfterCacheableMissIsHit | static/sw.js:90-104 | after a miss answered by a basic 200, the same request is a hit with that response |
| Strategies.UncacheableMissStoresNothing | static/sw.js:92-94 | a miss answered by anything but a basic 200 is passed on and stores nothing |
| Strategies.OfflineMissFallsBackToRoot | static/sw.js:107-112 | offline with no cached copy: a page navigation gets the cached root if there is one, and everything else gets no response |
| Lifecycle.PutAll | static/sw.js:19 | storing the assets leaves the current generation present and changes no other generation |
| Lifecycle.PutAllEntries | static/sw.js:19 | storing the assets adds exactly their responses to the current generation's entries |
| Lifecycle.FetchedStep | static/sw.js:19 | adding the first asset and then the rest adds them all |
| Lifecycle.PutEffect | static/sw.js:19 | one put into the current generation updates exactly that URL's entry |
| Lifecycle.OpenKeepsEntries | static/sw.js:16 | opening the current generation leaves its entries as they were, none when it is created |
| Lifecycle.AddAllEffect | static/sw.js:16-19 | after the open and a successful `addAll`, the current generation holds its old entries plus every fetched response, and no other generation changes |
| Lifecycle.InstallAssets | static/sw.js:14-26 | these cases:<br>- `skipWaiting` always;<br>- a failed open changes nothing;<br>- all assets are cached if every fetch is acceptable and the URLs are distinct;<br>- otherwise none is cached, and the failure is swallowed |
| Lifecycle.ManifestUrls | static/sw.js:2-11 | eight requests, one per manifest entry in order: the six site paths with the origin in front, the two CDN stylesheets as written |
| Lifecycle.ManifestUrlsDistinct | static/sw.js:2-11 | for every origin the eight requested URLs are pairwise different, so `addAll` never refuses the batch for a duplicate |
| Lifecycle.Install | static/sw.js:14-26 | `skipWaiting` always; if the generation opens and every asset is acceptable, each manifest URL ends up cached with its own response; if any asset is refused, the current generation's entries stay as they were |
| Lifecycle.OpaqueAssetVoidsInstall | static/sw.js:9-19 | a manifest asset answered with status 0 leaves the current generation's entries as they were |
| Lifecycle.InstallTwoAssets | static/sw.js:14-26 | installing two fetchable assets into an empty store leaves exactly those two entries |
| Lifecycle.Names | static/sw.js:31 | the listed names are the generations' names in order |
| Lifecycle.DeleteStale | static/sw.js:32-39 | each listed name other than the current one is deleted; the current generation is never deleted |
| Lifecycle.Activate | static/sw.js:29-43 | after activation the store holds exactly the generations named with the current name |
| Lifecycle.ActivateDropsOldVersion | static/sw.js:29-41 | with an old and the current version cached, activation keeps only the current one, unchanged |
| Lifecycle.SkipWaitingRequested | static/sw.js:198-202 | `skipWaiting` is requested exactly by an object message whose `type` member is the string `SKIP_WAITING` |
| Lifecycle.PushNotification | static/sw.js:157-184 | the body is the push text when data is present (even empty) and the default text otherwise; the actions are `explore` then `close` |
| Lifecycle.NotificationClick | static/sw.js:187-195 | a click always closes; a window on `/` opens exactly for `explore` |
| Lifecycle.OfferedActionsOnClick | static/sw.js:167-194 | of the two offered actions, only the first opens a window, and so does no click on the body |
| Worker.Step | static/sw.js:14-202 | only install, activate and fetch change the store, and only activate deletes; the store stays well formed; replies come from fetch only, and every GET fetch is handled |
| Worker.StepRequests | static/sw.js:14-202 | `skipWaiting` comes exactly from install or a `SKIP_WAITING` message; a notification is shown exactly for a push; a window opens only for an `explore` click |
| Worker.Run | static/sw.js:14-202 | over any event sequence: every GET fetch is handled by the worker (its reply may be no response, which the page sees as a network error) and no other event is; after an activation only the current generation remains; no stale generation is ever created |
| Worker.StepKeepsRunInvariant | static/sw.js:14-43 | any one event keeps the store well formed and adds no generation under another name; after an activation, only current generations remain |
| Worker.InstalledAssetIsServedFromCache | static/sw.js:14-26 | after an install that cached an asset, fetching it is answered from the cache without the network |
| Flask.RequestData | app_mobile.py:92 | the read raises exactly for a body nested past the recursion limit, because `silent=True` silences only `ValueError`; a missing or malformed body (JSON with an integer of more than 4300 digits included) or a falsy one becomes the empty object; any truthy body, object or not, is passed on unchanged |
| Flask.QuestionOf | app_mobile.py:93 | no `question` member gives the empty text, `null` gives `None`, a string gives its stripped text; a non-empty question has no whitespace at either edge |
| Flask.QuestionEmptyIffBlank | app_mobile.py:93-97 | the extracted question is empty exactly when the `question` member is absent or a whitespace-only string |
| MobileApi.UpstreamFailure | app_mobile.py:137-163 | the first matching class decides:<br>- authentication → 500 `OPENAI_AUTH_ERROR`;<br>- rate limit → 429 `RATE_LIMIT_EXCEEDED`;<br>- API error → 500 `OPENAI_API_ERROR`;<br>- anything else → 500 `INTERNAL_ERROR`;<br>always an `{error, code}` envelope |
| MobileApi.Chat | app_mobile.py:80-163 | these cases:<br>- OPTIONS gets 200, the three CORS headers and no body;<br>- a body that cannot be read (nested too deeply) or is neither an object nor falsy gets 500 `INTERNAL_ERROR`;<br>- a 400 comes exactly from a blank or over-long question, with `MISSING_QUESTION` checked first;<br>- an admissible question gets the upstream outcome;<br>- every failure is an `{error, code}` envelope |
| MobileApi.ChatPost | app_mobile.py:91-163 | the POST branch on the request data: a non-object is `INTERNAL_ERROR`; the validation iffs; an admissible question reaches the upstream |
| MobileApi.ChatAnswer | app_mobile.py:124-135 | the success body has the stripped answer, the timestamp, the model name, and `user_id`/`session_id` echoed with defaults `anonymous`/`default` |
| MobileApi.CodeOfErrorReply | app_mobile.py:98-101 | an error reply carries its code |
| MobileApi.RejectedChatSkipsUpstream | app_mobile.py:97-108 | a rejected question gets the same reply whatever the completion service would do |
| MobileApi.QuestionLengthBoundary | app_mobile.py:104-108 | a question with no edge whitespace is rejected, as `QUESTION_TOO_LONG` and with status 400, exactly when it is longer than 1000 characters, so 1000 passes and 1001 does not |
| MobileApi.NullQuestionIsAsked | app_mobile.py:93-101 | a `null` question becomes the text `None`, so it is not reported as missing |
| MobileApi.AskingAlone | app_mobile.py:92-93 | a body holding only a question with no edge whitespace asks exactly that question |
| MobileApi.Feedback | app_mobile.py:174-203 | these cases:<br>- a body nested too deeply to read, or a truthy body that is not an object, is 500 `FEEDBACK_ERROR`, while a falsy one reads as `{}`;<br>- otherwise 200 exactly for a rating that is an integer 1 to 5 or `true`, echoed back;<br>- 400 `INVALID_RATING` for anything else |
| MobileApi.NotFound | app_mobile.py:205-211 | 404 with code `NOT_FOUND`, as an envelope |
| MobileApi.InternalError | app_mobile.py:213-219 | 500 with code `INTERNAL_ERROR`, as an envelope, distinct from the chat's catch-all reply |
| MobileApi.ServerPort | app_mobile.py:223 | unset gives 5000; a set value must parse as an integer, or the server does not start |
| MobileApi.ServerPortSeparator | app_mobile.py:223 | a U+001C before the digits stops the server, although `str.strip()` would remove it |
| MobileApi.DebugMode | app_mobile.py:224 | debugging is on exactly when `FLASK_ENV` is `development` |
| MobileApi.DebugIsExact | app_mobile.py:224 | unset, `Development` or `development ` with a trailing space all leave debugging off |
| MobileApi.ServerPortOfNumber | app_mobile.py:223 | a numeric `PORT` of at most 4300 digits is the port served; an empty one stops the server |
| MobileApi.ServerPortTooLong | app_mobile.py:223 | a numeric `PORT` of more than 4300 digits stops the server |
| WebApp.Ask | app.py:87-116 | these cases:<br>- a body nested too deeply to read, or one that is neither an object nor falsy, crashes the view;<br>- 400 exactly for a blank question;<br>- otherwise 200 with the stripped answer, or the fixed apology when the completion call fails |
| WebApp.AskNeverFailsUpstream | app.py:98-116 | a non-blank question always gets a 200 whatever the completion service does; the answer is empty exactly when a completion's content is all whitespace |
| WebApp.MistypedBodyCrashes | app.py:94-95 | a non-empty JSON array crashes `/ask` but gets `INTERNAL_ERROR` from the mobile chat |
| WebApp.DeepBodyFails | app.py:94 | a body nested past the recursion limit crashes `/ask`, and gets `INTERNAL_ERROR` from the mobile chat and `FEEDBACK_ERROR` from feedback (app_mobile.py:92, :178) |
| WebApp.LoadMarkdown | app.py:43-51 | the rendered file; the fixed "content unavailable" paragraph when the file is missing; any other error is passed on |
| WebApp.Port | app.py:119-125 | unset or empty gives 5000; a parsable value is used; anything `int` rejects gives 5000 |
| WebApp.PortRoundTrip | app.py:119-125 | a `PORT` holding a number of at most 4300 digits, padded with whitespace that `int()` skips, selects that number |
| WebApp.PortTooLongFallsBack | app.py:119-125 | a `PORT` holding a number of more than 4300 digits makes `int()` raise, so 5000 is served |
| WebApp.PortSeparatorFallsBack | app.py:119-125 | a `PORT` holding a U+001C before a number makes `int()` raise, so 5000 is served |

## Left out

- Offline.OfflineMessage: requires that the language is not an inherited `Object.prototype` key. The source looks such a key up on the message object and returns a function instead of a string. No caller can pass one, because the language is always `fr`.
- Python.Repr: is exact only for ASCII text. For other characters Python decides printability from Unicode tables, and those are not modelled.
- Python.ParseInt: accepts only ASCII digits. Python's `int()` also accepts other Unicode decimal digits.
- JSON parsing itself: the body's parse outcome is an input (`Flask.RequestBody`). The model does not compute when a document is malformed or at what nesting depth CPython's recursion limit is reached.
- JSON floating-point numbers: not modelled, so a rating like `3.0` cannot be expressed. Python would reject it as not an `int`.
- Strategies.CacheFirstReply: assumes `caches.match('/')` in the catch branch never rejects, even right after `caches.match(request)` rejected. Only one "lookup rejects" flag is modelled per request, and it governs the first lookup only.
- Strategies.CacheFirstReply: applies the put at once. The source does not await it, so the store may change after the reply.
- `cache.put` and `caches.open` failures in the cache-first path: not modelled. The source ignores them, so they would only leave the store unchanged.
- URL resolution: `Fetch.Resolve` handles only absolute URLs and root-relative paths. Fragments and normalisation are not modelled, and `caches.match` compares URLs exactly.
- `Response.clone()`: bodies are values here, so the clone is the response itself.
- The `Vary` header and the scheme checks of `Cache.addAll` and `Cache.put`: not modelled.
- The `sync` listener: only logs, so it is modelled as having no effect.
- `clients.claim`, and how `clients.openWindow` opens the window: host effects outside the store. Only the URL asked for is kept.
- Logging and timestamps: logging has no effect on the replies. The current time is a parameter.
- The completion call's prompt, model parameters and client setup: not modelled. The outcome is a parameter.
- `jsonify` key order and HTTP headers other than the preflight's: not modelled. Bodies are compared as JSON members.
- Flask's 405 replies, and the extra headers added by the `flask_cors` middleware: not modelled.
- Markdown rendering: a function parameter of `WebApp.LoadMarkdown`. The templates are not modelled.
- The other views of both apps (the mobile app's index, health, info and chat history; the web app's index and its three legal pages `/privacy_policy`, `/legal_notice` and `/terms`): not modelled. They read no request data. The health view reports the current time and whether the API key is set; the legal pages render their Markdown file through `load_markdown_file` (`WebApp.LoadMarkdown`); the others return fixed content.
- The React Native screens in `App.js` and `src/`: not part of this model.

=== FILE: cache_store.dfy ===
/**
 * The worker's persistent cache store (the CacheStorage object `caches`):
 * named cache generations in creation order, each mapping a request URL to
 * a stored response. `caches.match` searches every generation in that
 * order, not only the current one.
 */
module CacheStore {
  import opened Wrappers
  import opened Fetch

  /** The version-qualified name of the generation the worker writes to. */
  const CurrentGeneration: string := "juriste-virtuel-v1.0.0"

  datatype Generation = Generation(name: string, entries: map<string, Response>)

  type Store = seq<Generation>

  /** No two generations share a name (`caches.open` never creates a duplicate). */
  predicate WellFormed(s: Store) {
    forall i, j :: 0 <= i < j < |s| ==> s[i].name != s[j].name
  }

  /** Position of the generation called `name`. */
  function IndexOf(s: Store, name: string): (r: Option<nat>)
    ensures r.Some? ==> r.value < |s| && s[r.value].name == name
    ensures r.Some? ==> forall j :: 0 <= j < r.value ==> s[j].name != name
    ensures r.None? ==> forall j :: 0 <= j < |s| ==> s[j].name != name
  {
    if |s| == 0 then None
    else if s[0].name == name then Some(0)
    else match IndexOf(s[1..], name)
      case Some(k) => Some(k + 1)
      case None => None
  }

  /** `caches.match(url)`: the entry of the first generation, in creation order, holding `url`. */
  function Match(s: Store, url: string): (r: Option<Response>)
    ensures r.Some? <==> exists i :: 0 <= i < |s| && url in s[i].entries
  {
    if |s| == 0 then None
    else if url in s[0].entries then Some(s[0].entries[url])
    else
      assert forall i :: 1 <= i < |s| ==> s[1..][i - 1] == s[i];
      Match(s[1..], url)
  }

  /** `Match` returns the entry of the earliest generation that holds the URL. */
  lemma {:induction false} MatchFirst(s: Store, url: string, i: nat)
    requires i < |s| && url in s[i].entries
    requires forall j :: 0 <= j < i ==> url !in s[j].entries
    ensures Match(s, url) == Some(s[i].entries[url])
  {
    if i > 0 {
      MatchFirst(s[1..], url, i - 1);
    }
  }

  /**
   * Two stores that agree, generation by generation, on the entry for `url`
   * (the longer one holding no such entry beyond the shorter's end) answer
   * `Match` alike.
   */
  lemma {:induction false} MatchAgrees(s: Store, t: Store, url: string)
    requires |s| <= |t|
    requires forall i :: 0 <= i < |s| ==> (url in s[i].entries <==> url in t[i].entries)
    requires forall i :: 0 <= i < |s| && url in s[i].entries ==> s[i].entries[url] == t[i].entries[url]
    requires forall i :: |s| <= i < |t| ==> url !in t[i].entries
    ensures Match(s, url) == Match(t, url)
  {
    if |s| > 0 && url !in s[0].entries {
      MatchAgrees(s[1..], t[1..], url);
    }
  }

  /**
   * `t` changed `s` only in generations called `name`: every generation
   * keeps its place and name, the others keep their entries too, and any
   * generation added at the end is called `name`.
   */
  predicate OnlyTouches(s: Store, t: Store, name: string) {
    && |t| >= |s|
    && (forall i :: 0 <= i < |s| ==> t[i].name == s[i].name)
    && (forall i :: 0 <= i < |s| && s[i].name != name ==> t[i] == s[i])
    && (forall i :: |s| <= i < |t| ==> t[i].name == name)
  }

  lemma OnlyTouchesTransitive(s: Store, t: Store, u: Store, name: string)
    requires OnlyTouches(s, t, name) && OnlyTouches(t, u, name)
    ensures OnlyTouches(s, u, name)
  {
  }

  /** A generation other than `name` found after such a change was there before, unchanged. */
  lemma OnlyTouchesKeepsOthers(s: Store, t: Store, name: string)
    requires OnlyTouches(s, t, name)
    ensures forall g :: g in t && g.name != name ==> g in s
  {
    forall g | g in t && g.name != name
      ensures g in s
    {
      var i :| 0 <= i < |t| && t[i] == g;
      assert s[i] == g;
    }
  }

  /** `caches.open(name)`: the generation called `name`, created empty at the end if absent. */
  function Open(s: Store, name: string): (s': Store)
    ensures IndexOf(s', name).Some?
    ensures WellFormed(s) ==> WellFormed(s')
    ensures OnlyTouches(s, s', name)
    ensures IndexOf(s, name).Some? ==> s' == s
    ensures IndexOf(s, name).None? ==> s' == s + [Generation(name, map[])]
  {
    if IndexOf(s, name).Some? then s
    else
      var s' := s + [Generation(name, map[])];
      assert s'[|s|].name == name;
      s'
  }

  /** `cache.put(url, resp)` on the generation `caches.open(name)` yields. */
  function Put(s: Store, name: string, url: string, resp: Response): (s': Store)
    ensures |s'| == |Open(s, name)|
    ensures WellFormed(s) ==> WellFormed(s')
    ensures OnlyTouches(s, s', name)
    ensures forall i :: 0 <= i < |s'| ==> s'[i].name == Open(s, name)[i].name
    ensures forall i :: 0 <= i < |s'| ==> s'[i].entries.Keys == Open(s, name)[i].entries.Keys + (if i == IndexOf(s', name).value then {url} else {})
  {
    var o := Open(s, name);
    var k := IndexOf(o, name).value;
    o[k := Generation(name, o[k].entries[url := resp])]
  }

  /** A put changes the answer for its own URL only. */
  lemma PutKeepsOtherUrls(s: Store, name: string, url: string, resp: Response, u: string)
    requires u != url
    ensures Match(Put(s, name, url, resp), u) == Match(s, u)
  {
    var o := Open(s, name);
    var p := Put(s, name, url, resp);
    var k := IndexOf(o, name).value;
    assert forall i :: 0 <= i < |p| && i != k ==> p[i] == o[i];
    assert p[k].entries == o[k].entries[url := resp];
    MatchAgrees(s, p, u);
  }

  /** After a put for a URL no generation held, `Match` finds the put response. */
  lemma PutThenMatch(s: Store, name: string, url: string, resp: Response)
    requires Match(s, url).None?
    ensures Match(Put(s, name, url, resp), url) == Some(resp)
  {
    var o := Open(s, name);
    var p := Put(s, name, url, resp);
    var k := IndexOf(o, name).value;
    assert forall i :: 0 <= i < |s| ==> url !in s[i].entries;
    assert forall i :: 0 <= i < |o| ==> url !in o[i].entries;
    assert forall j :: 0 <= j < k ==> p[j] == o[j];
    MatchFirst(p, url, k);
  }

  /** `caches.delete(name)`: drop the generation called `name`, keeping the others in order. */
  function Delete(s: Store, name: string): (s': Store)
    ensures forall g :: g in s' <==> g in s && g.name != name
    ensures |s'| <= |s|
    ensures WellFormed(s) ==> WellFormed(s')
  {
    if |s| == 0 then []
    else
      var rest := Delete(s[1..], name);
      assert forall g :: g in s[1..] ==> g in s;
      if s[0].name == name then rest
      else
        assert forall g :: g in s <==> g == s[0] || g in s[1..];
        [s[0]] + rest
  }
}

=== FILE: fetch.dfy ===
/**
 * The parts of the Fetch API the service worker reads: a request's method (`verb`),
 * URL and destination, and a response's status, type, headers and body.
 * The network is an oracle: each fetch either delivers a response or throws.
 */
module Fetch {

  /** `Response.type` as the Fetch standard defines it. */
  datatype ResponseType = Basic | Cors | Default | Error | Opaque | OpaqueRedirect

  datatype Response = Response(status: int, rtype: ResponseType, headers: seq<(string, string)>, body: string)

  /** An intercepted request; `url` is absolute, `destination` is e.g. "document" or "style". */
  datatype Request = Request(verb: string, url: string, destination: string)

  /** What `fetch` did: resolved with a response, or rejected (offline, DNS, refused). */
  datatype NetOutcome = Delivered(response: Response) | NetworkError

  /**
   * Resolution of a URL the worker writes against its origin, for the two
   * forms it uses: an absolute path (`/`, `/static/...`) or an absolute URL.
   */
  function Resolve(origin: string, url: string): string {
    if |url| > 0 && url[0] == '/' then origin + url else url
  }
}

=== FILE: flask.dfy ===
/**
 * What the two Flask apps share: the reply a view produces, how a view reads
 * its JSON request body, the question field both chat endpoints extract,
 * and the upstream completion service as an oracle.
 */
module Flask {
  import opened Wrappers
  import opened Json
  import opened Python

  /** A view's reply: status, headers it adds, and a JSON body (`None`: empty body). */
  datatype HttpReply = HttpReply(status: int, headers: seq<(string, string)>, body: Option<Json>)

  /**
   * What `request.get_json(force=True, silent=True)` makes of the request
   * body. `Unparsable`: the body is missing or is not JSON, which includes
   * JSON holding an integer of more than 4300 digits (`json.loads` refuses
   * it as `int()` does); `silent=True` turns that `ValueError` into `None`.
   * `TooDeep`: the document nests arrays or objects past CPython's
   * recursion limit, and the `RecursionError` that `json.loads` raises is
   * not a `ValueError`, so it escapes `silent=True`.
   */
  datatype RequestBody = Parsed(doc: Json) | Unparsable | TooDeep

  /**
   * `request.get_json(force=True, silent=True) or {}`, with `None` when the
   * read raises. A body that does not parse, and a falsy document (null,
   * false, 0, "", [], {}), become the empty object; any truthy document,
   * object or not, is passed on unchanged.
   */
  function RequestData(body: RequestBody): (data: Option<Json>)
    ensures data.None? <==> body.TooDeep?
    ensures body.Unparsable? || (body.Parsed? && !PyTruthy(body.doc)) ==> data == Some(JObject([]))
    ensures body.Parsed? && PyTruthy(body.doc) ==> data == Some(body.doc)
    ensures body.Parsed? && body.doc.JObject? ==> data == Some(body.doc)
    ensures data.Some? && data.value.JObject? <==> body.Unparsable? || (body.Parsed? && (!PyTruthy(body.doc) || body.doc.JObject?))
  {
    match body
    case Parsed(doc) => if PyTruthy(doc) then Some(doc) else Some(JObject([]))
    case Unparsable => Some(JObject([]))
    case TooDeep => None
  }

  /** The request data was read and is a JSON object, so `data.get` can be called on it. */
  predicate ReadsObject(body: RequestBody) {
    RequestData(body).Some? && RequestData(body).value.JObject?
  }

  /** `str(data.get("question", "")).strip()` on a JSON object's members. */
  function QuestionOf(members: seq<(string, Json)>): (q: string)
    ensures Lookup(members, "question").None? ==> q == ""
    ensures Lookup(members, "question") == Some(JNull) ==> q == "None"
    ensures Lookup(members, "question").Some? && Lookup(members, "question").value.JString? ==>
              q == Strip(Lookup(members, "question").value.s)
    ensures q != "" ==> !IsSpace(q[0]) && !IsSpace(q[|q| - 1])
  {
    StripClean("None");
    Strip(Str(Get(members, "question", JString(""))))
  }

  /** The request carries no usable question: the key is absent or holds a string of whitespace. */
  ghost predicate BlankQuestion(members: seq<(string, Json)>) {
    match Lookup(members, "question")
    case None => true
    case Some(v) => v.JString? && forall k :: 0 <= k < |v.s| ==> IsSpace(v.s[k])
  }

  /**
   * The extracted question is empty exactly for a blank question: a JSON
   * `null` reads as the non-empty text "None", a number as its digits.
   */
  lemma QuestionEmptyIffBlank(members: seq<(string, Json)>)
    ensures QuestionOf(members) == "" <==> BlankQuestion(members)
  {
    var v := Get(members, "question", JString(""));
    StrStripEmpty(v);
  }

  /** The `{error, code}` body of an error reply. */
  function ErrorBody(message: string, code: string): Json {
    JObject([("error", JString(message)), ("code", JString(code))])
  }

  /** The classes of error the chat view tells apart. */
  datatype ErrorClass = AuthenticationError | RateLimitError | APIError | OtherError

  /**
   * What the completion call did: returned a message content, or raised an
   * exception that is an instance of each class in `classes` (a failure to
   * read the content out of the completion is an `OtherError`).
   */
  datatype Upstream = Completed(content: string) | Raised(classes: set<ErrorClass>)
}

=== FILE: json.dfy ===
/**
 * JSON documents as both runtimes see them after parsing. JavaScript's
 * `JSON.parse` and Python's `json.loads` agree that a repeated key takes
 * its LAST value; the member order kept here is `json.loads`'s
 * first-appearance order (`JSON.parse` moves array-index keys such as "1"
 * to the front, which nothing in the worker depends on). Only integral
 * numbers are modelled.
 */
module Json {
  import opened Wrappers
  import opened Text

  datatype Json =
    | JNull
    | JBool(b: bool)
    | JInt(i: int)
    | JString(s: string)
    | JArray(items: seq<Json>)
    | JObject(members: seq<(string, Json)>)

  /** The index of the last member named `key`, if any. */
  function LastIndex(members: seq<(string, Json)>, key: string): (r: Option<nat>)
    ensures r.Some? ==> r.value < |members| && members[r.value].0 == key
    ensures r.Some? ==> forall j :: r.value < j < |members| ==> members[j].0 != key
    ensures r.None? ==> forall j :: 0 <= j < |members| ==> members[j].0 != key
  {
    if |members| == 0 then None
    else if members[|members| - 1].0 == key then Some(|members| - 1)
    else LastIndex(members[..|members| - 1], key)
  }

  /** `obj[key]` / `dict.get(key)`: the value of the last member named `key`. */
  function Lookup(members: seq<(string, Json)>, key: string): (r: Option<Json>)
    ensures r.Some? <==> exists j :: 0 <= j < |members| && members[j].0 == key
    ensures r.Some? ==> exists j :: 0 <= j < |members| && members[j] == (key, r.value) &&
                                   forall k :: j < k < |members| ==> members[k].0 != key
  {
    match LastIndex(members, key)
    case Some(j) => Some(members[j].1)
    case None => None
  }

  /** `dict.get(key, default)` on an object. */
  function Get(members: seq<(string, Json)>, key: string, default: Json): Json {
    Lookup(members, key).GetOr(default)
  }

  /** Reading a key of an object built from distinct keys gives that key's value. */
  lemma LookupDistinct(members: seq<(string, Json)>, j: nat)
    requires j < |members|
    requires forall a, b :: 0 <= a < b < |members| ==> members[a].0 != members[b].0
    ensures Lookup(members, members[j].0) == Some(members[j].1)
  {
    var k := LastIndex(members, members[j].0);
    assert k.Some?;
    assert k.value == j;
  }

  /** The distinct keys of `members` in first-appearance order. */
  function Keys(members: seq<(string, Json)>): (ks: seq<string>)
    ensures forall a, b :: 0 <= a < b < |ks| ==> ks[a] != ks[b]
    ensures forall k :: k in ks <==> exists j :: 0 <= j < |members| && members[j].0 == k
  {
    if |members| == 0 then []
    else
      var front := Keys(members[..|members| - 1]);
      var last := members[|members| - 1].0;
      if last in front then
        assert forall j :: 0 <= j < |members| - 1 ==> members[..|members| - 1][j] == members[j];
        front
      else
        assert forall j :: 0 <= j < |members| - 1 ==> members[..|members| - 1][j] == members[j];
        front + [last]
  }

  /** JavaScript truthiness of a parsed value: objects and arrays are always truthy. */
  predicate JsTruthy(v: Json) {
    match v
    case JNull => false
    case JBool(b) => b
    case JInt(i) => i != 0
    case JString(s) => s != ""
    case JArray(_) => true
    case JObject(_) => true
  }

  /** Python truthiness of a parsed value: empty containers are falsy. */
  predicate PyTruthy(v: Json) {
    match v
    case JNull => false
    case JBool(b) => b
    case JInt(i) => i != 0
    case JString(s) => s != ""
    case JArray(items) => |items| > 0
    case JObject(members) => |members| > 0
  }

  // ---------------------------------------------------------------------
  // JavaScript JSON.stringify of a string (QuoteJSONString of ECMA-262)

  /** Characters that JSON.stringify does not copy verbatim into a string. */
  predicate NeedsEscape(c: char) {
    c == '"' || c == '\\' || c < ' '
  }

  function HexDigit(d: nat): char
    requires d < 16
  {
    "0123456789abcdef"[d]
  }

  /** The escape sequence JSON.stringify writes for one character. */
  function EscapeChar(c: char): (e: string)
    ensures NeedsEscape(c) ==> |e| >= 2 && e[0] == '\\'
    ensures !NeedsEscape(c) ==> e == [c]
  {
    if c == '"' then "\\\""
    else if c == '\\' then "\\\\"
    else if c == '\U{8}' then "\\b"
    else if c == '\t' then "\\t"
    else if c == '\n' then "\\n"
    else if c == '\U{C}' then "\\f"
    else if c == '\r' then "\\r"
    else if c < ' ' then "\\u00" + [HexDigit(c as int / 16), HexDigit(c as int % 16)]
    else [c]
  }

  function EscapeText(s: string): string {
    if |s| == 0 then "" else EscapeChar(s[0]) + EscapeText(s[1..])
  }

  /** JSON.stringify of a string value: escaped text between double quotes. */
  function Quote(s: string): string {
    "\"" + EscapeText(s) + "\""
  }

  /**
   * JSON.stringify of an object literal whose members are all strings, with
   * no whitespace, members in insertion order.
   */
  function StringifyStrings(fields: seq<(string, string)>): string {
    "{" + Join(seq(|fields|, i requires 0 <= i < |fields| => Quote(fields[i].0) + ":" + Quote(fields[i].1)), ",") + "}"
  }
}

=== FILE: lifecycle.dfy ===
/**
 * The worker's lifecycle listeners: `install` pre-populates the current
 * generation with the asset manifest, `activate` evicts every other
 * generation, and the `message`, `push` and `notificationclick` listeners
 * make small decisions.
 */
module Lifecycle {
  import opened Wrappers
  import opened Json
  import opened Fetch
  import opened CacheStore

  /** The asset manifest, in source order; the paths resolve against the worker's origin. */
  const Manifest: seq<string> := [
    "/",
    "/static/css/conversation-small-j9iamy23.css",
    "/static/css/codemirror-nauedrd6.css",
    "/static/css/cot-message-n4x930jt.css",
    "/static/css/comments-plugin-tah3dlup.css",
    "/static/manifest.json",
    Https + "fonts.googleapis.com/css2?family=Inter:wght@300;400;500;600;700&display=swap",
    Https + "cdnjs.cloudflare.com/ajax/libs/font-awesome/6.4.0/css/all.min.css"
  ]

  const Https: string := "https://"

  /** The entries of the current generation (none when it does not exist). */
  function CurrentEntries(s: Store): map<string, Response> {
    match IndexOf(s, CurrentGeneration)
    case Some(k) => s[k].entries
    case None => map[]
  }

  predicate Distinct(urls: seq<string>) {
    forall i, j :: 0 <= i < j < |urls| ==> urls[i] != urls[j]
  }

  /**
   * `Cache.addAll`'s test of one fetched asset: the fetch resolved, with a
   * response that is not a network error, has an ok status (200 to 299) and
   * is not a partial (206) response.
   */
  predicate AddAllAccepts(net: NetOutcome) {
    net.Delivered? && net.response.rtype != Error &&
    200 <= net.response.status <= 299 && net.response.status != 206
  }

  /** Store every asset's response in the current generation, in order. */
  function PutAll(s: Store, urls: seq<string>, net: string -> NetOutcome): (s': Store)
    requires forall i :: 0 <= i < |urls| ==> net(urls[i]).Delivered?
    ensures WellFormed(s) ==> WellFormed(s')
    ensures IndexOf(s', CurrentGeneration).Some?
    ensures OnlyTouches(s, s', CurrentGeneration)
    decreases |urls|
  {
    if |urls| == 0 then Open(s, CurrentGeneration)
    else
      var s1 := Put(s, CurrentGeneration, urls[0], net(urls[0]).response);
      var s' := PutAll(s1, urls[1..], net);
      OnlyTouchesTransitive(s, s1, s', CurrentGeneration);
      s'
  }

  /** The responses of `urls`, keyed by URL. */
  function Fetched(urls: seq<string>, net: string -> NetOutcome): map<string, Response>
    requires forall i :: 0 <= i < |urls| ==> net(urls[i]).Delivered?
  {
    map u | u in urls :: net(u).response
  }

  /** Adding the first URL's response on its own, then the rest, adds them all. */
  lemma FetchedStep(m: map<string, Response>, urls: seq<string>, net: string -> NetOutcome)
    requires |urls| > 0
    requires forall i :: 0 <= i < |urls| ==> net(urls[i]).Delivered?
    ensures m[urls[0] := net(urls[0]).response] + Fetched(urls[1..], net) == m + Fetched(urls, net)
  {
    var f := Fetched(urls, net);
    var g := Fetched(urls[1..], net);
    assert forall u :: u in urls <==> u == urls[0] || u in urls[1..];
    assert f.Keys == g.Keys + {urls[0]};
  }

  /** `PutAll` adds exactly the fetched responses to the current generation, keeping its other entries. */
  lemma {:induction false} PutAllEntries(s: Store, urls: seq<string>, net: string -> NetOutcome)
    requires forall i :: 0 <= i < |urls| ==> net(urls[i]).Delivered?
    ensures CurrentEntries(PutAll(s, urls, net)) == CurrentEntries(s) + Fetched(urls, net)
    decreases |urls|
  {
    if |urls| == 0 {
      assert Fetched(urls, net) == map[];
      if IndexOf(s, CurrentGeneration).None? {
        var o := Open(s, CurrentGeneration);
        assert IndexOf(o, CurrentGeneration) == Some(|s|);
      }
    } else {
      var r0 := net(urls[0]).response;
      var s1 := Put(s, CurrentGeneration, urls[0], r0);
      PutEffect(s, urls[0], r0);
      PutAllEntries(s1, urls[1..], net);
      FetchedStep(CurrentEntries(s), urls, net);
    }
  }

  /** One put into the current generation, seen through `CurrentEntries`. */
  lemma PutEffect(s: Store, url: string, response: Response)
    ensures CurrentEntries(Put(s, CurrentGeneration, url, response)) == CurrentEntries(s)[url := response]
  {
    var o := Open(s, CurrentGeneration);
    var k := IndexOf(o, CurrentGeneration).value;
    var s' := Put(s, CurrentGeneration, url, response);
    assert s' == o[k := Generation(CurrentGeneration, o[k].entries[url := response])];
    assert IndexOf(s', CurrentGeneration) == Some(k);
    if IndexOf(s, CurrentGeneration).Some? {
      assert o == s;
    }
  }

  datatype InstallOutcome = InstallOutcome(store: Store, skipWaiting: bool)

  /**
   * `install` with the assets `urls`: open the current generation, then
   * `addAll`, which stores every asset or, if any is refused or two name the
   * same URL, none. `openFails` says whether `caches.open` rejects; `net`
   * is what fetching each URL does. Both errors are swallowed and
   * `skipWaiting` is called regardless.
   */
  function InstallAssets(store: Store, urls: seq<string>, openFails: bool, net: string -> NetOutcome): (r: InstallOutcome)
    ensures r.skipWaiting
    ensures WellFormed(store) ==> WellFormed(r.store)
    ensures OnlyTouches(store, r.store, CurrentGeneration)
    ensures openFails ==> r.store == store
    ensures !openFails ==> IndexOf(r.store, CurrentGeneration).Some?
    // all or nothing
    ensures !openFails && Distinct(urls) && (forall i :: 0 <= i < |urls| ==> AddAllAccepts(net(urls[i]))) ==>
              CurrentEntries(r.store) == CurrentEntries(store) + Fetched(urls, net)
    ensures !(Distinct(urls) && forall i :: 0 <= i < |urls| ==> AddAllAccepts(net(urls[i]))) ==>
              CurrentEntries(r.store) == CurrentEntries(store)
  {
    if openFails then InstallOutcome(store, true)
    else
      var created := Open(store, CurrentGeneration);
      OpenKeepsEntries(store);
      if Distinct(urls) && forall i :: 0 <= i < |urls| ==> AddAllAccepts(net(urls[i])) then
        var filled := PutAll(created, urls, net);
        AddAllEffect(store, urls, net);
        InstallOutcome(filled, true)
      else
        InstallOutcome(created, true)
  }

  /** Opening the current generation leaves its entries as they were (none, if it is new). */
  lemma OpenKeepsEntries(s: Store)
    ensures CurrentEntries(Open(s, CurrentGeneration)) == CurrentEntries(s)
  {
    if IndexOf(s, CurrentGeneration).None? {
      var o := Open(s, CurrentGeneration);
      assert IndexOf(o, CurrentGeneration) == Some(|s|);
    }
  }

  /** The effect of a successful `addAll` after `caches.open`, measured against the store before the open. */
  lemma AddAllEffect(store: Store, urls: seq<string>, net: string -> NetOutcome)
    requires forall i :: 0 <= i < |urls| ==> net(urls[i]).Delivered?
    ensures var filled := PutAll(Open(store, CurrentGeneration), urls, net);
            && CurrentEntries(filled) == CurrentEntries(store) + Fetched(urls, net)
            && OnlyTouches(store, filled, CurrentGeneration)
            && (WellFormed(store) ==> WellFormed(filled))
  {
    var created := Open(store, CurrentGeneration);
    OpenKeepsEntries(store);
    PutAllEntries(created, urls, net);
    OnlyTouchesTransitive(store, created, PutAll(created, urls, net), CurrentGeneration);
  }

  /**
   * The manifest, resolved against the worker's origin: the six paths of
   * the site get the origin in front, the two CDN stylesheets are requested
   * as written.
   */
  function ManifestUrls(origin: string): (urls: seq<string>)
    ensures |urls| == |Manifest| == 8
    ensures forall i :: 0 <= i < 6 ==> urls[i] == origin + Manifest[i]
    ensures urls[6] == Manifest[6] && urls[7] == Manifest[7]
  {
    assert forall i :: 0 <= i < 6 ==> Manifest[i][0] == '/';
    assert Manifest[6][0] == Https[0] && Manifest[7][0] == Https[0];
    seq(|Manifest|, i requires 0 <= i < |Manifest| => Resolve(origin, Manifest[i]))
  }

  /**
   * A short fingerprint of a URL read from its end: its last character and,
   * for a URL ending in `s`, also its fifth-last one.
   */
  function Ending(u: string): (char, char) {
    if |u| == 0 then (' ', ' ')
    else if u[|u| - 1] != 's' || |u| < 5 then (u[|u| - 1], ' ')
    else (u[|u| - 1], u[|u| - 5])
  }

  /** Putting an origin in front of a path does not change its ending. */
  lemma EndingOfResolved(origin: string, m: string)
    requires m != "" && (m[|m| - 1] == 's' ==> |m| >= 5)
    ensures Ending(origin + m) == Ending(m)
  {
    var u := origin + m;
    assert u[|u| - 1] == m[|m| - 1];
    if m[|m| - 1] == 's' {
      assert u[|u| - 5] == m[|m| - 5];
    }
  }

  /** The eight manifest entries end differently. */
  lemma ManifestEndings()
    ensures Ending(Manifest[0]) == ('/', ' ') && Ending(Manifest[5]) == ('n', ' ')
    ensures Ending(Manifest[1]) == ('s', '3') && Ending(Manifest[2]) == ('s', '6')
    ensures Ending(Manifest[3]) == ('s', 't') && Ending(Manifest[4]) == ('s', 'p')
    ensures Ending(Manifest[6]) == ('p', ' ') && Ending(Manifest[7]) == ('s', 'n')
  {
  }

  /** Whatever the origin, the eight manifest requests name eight different URLs. */
  lemma ManifestUrlsDistinct(origin: string)
    ensures Distinct(ManifestUrls(origin))
  {
    var urls := ManifestUrls(origin);
    ManifestEndings();
    forall i | 0 <= i < 6
      ensures Ending(urls[i]) == Ending(Manifest[i])
    {
      EndingOfResolved(origin, Manifest[i]);
    }
    assert forall i, j :: 0 <= i < j < 8 ==> Ending(urls[i]) != Ending(urls[j]);
  }

  /**
   * The `install` listener: `skipWaiting` always; every manifest asset
   * cached with its response when the generation opens and every fetch is
   * acceptable; nothing cached when any one is not.
   */
  function Install(store: Store, origin: string, openFails: bool, net: string -> NetOutcome): (r: InstallOutcome)
    ensures r.skipWaiting
    ensures WellFormed(store) ==> WellFormed(r.store)
    ensures OnlyTouches(store, r.store, CurrentGeneration)
    ensures !openFails && (forall i :: 0 <= i < |Manifest| ==> AddAllAccepts(net(ManifestUrls(origin)[i]))) ==>
              forall i :: 0 <= i < |Manifest| ==>
                ManifestUrls(origin)[i] in CurrentEntries(r.store) &&
                CurrentEntries(r.store)[ManifestUrls(origin)[i]] == net(ManifestUrls(origin)[i]).response
    ensures (exists i :: 0 <= i < |Manifest| && !AddAllAccepts(net(ManifestUrls(origin)[i]))) ==>
              CurrentEntries(r.store) == CurrentEntries(store)
  {
    var urls := ManifestUrls(origin);
    ManifestUrlsDistinct(origin);
    var r := InstallAssets(store, urls, openFails, net);
    assert (forall i :: 0 <= i < |urls| ==> AddAllAccepts(net(urls[i]))) ==>
             forall i :: 0 <= i < |urls| ==> urls[i] in Fetched(urls, net);
    r
  }

  /**
   * A manifest asset answered with status 0, which is what a `no-cors`
   * fetch of the cross-origin font URLs yields (an opaque response), makes
   * `addAll` refuse the whole batch: the install caches nothing.
   */
  lemma OpaqueAssetVoidsInstall(store: Store, origin: string, net: string -> NetOutcome, i: nat)
    requires i < |Manifest|
    requires net(ManifestUrls(origin)[i]).Delivered? && net(ManifestUrls(origin)[i]).response.status == 0
    ensures CurrentEntries(Install(store, origin, false, net).store) == CurrentEntries(store)
  {
  }

  /**
   * A two-asset manifest, both fetchable, installed into an empty store:
   * the current generation ends with exactly those two entries.
   */
  lemma InstallTwoAssets(a: string, b: string, ra: Response, rb: Response, net: string -> NetOutcome)
    requires a != b && net(a) == Delivered(ra) && net(b) == Delivered(rb)
    requires AddAllAccepts(net(a)) && AddAllAccepts(net(b))
    ensures var s := InstallAssets([], [a, b], false, net).store;
            CurrentEntries(s) == map[a := ra, b := rb]
  {
    assert Fetched([a, b], net) == map[a := ra, b := rb];
  }

  // ---------------------------------------------------------------------
  // activate

  /** `caches.keys()`: the generation names in creation order. */
  function Names(s: Store): (ns: seq<string>)
    ensures |ns| == |s| && forall i :: 0 <= i < |s| ==> ns[i] == s[i].name
  {
    seq(|s|, i requires 0 <= i < |s| => s[i].name)
  }

  /** For each listed name other than the current one, `caches.delete` it. */
  function DeleteStale(s: Store, names: seq<string>): (s': Store)
    ensures forall g :: g in s' <==> g in s && (g.name == CurrentGeneration || g.name !in names)
    ensures WellFormed(s) ==> WellFormed(s')
    decreases |names|
  {
    if |names| == 0 then s
    else
      var s1 := if names[0] != CurrentGeneration then Delete(s, names[0]) else s;
      assert forall n :: n in names <==> n == names[0] || n in names[1..];
      DeleteStale(s1, names[1..])
  }

  /** The `activate` listener: every generation but the current one is deleted, the current one kept whole. */
  function Activate(s: Store): (s': Store)
    ensures forall g :: g in s' <==> g in s && g.name == CurrentGeneration
    ensures WellFormed(s) ==> WellFormed(s')
  {
    var names := Names(s);
    assert forall g :: g in s ==> g.name in names;
    DeleteStale(s, names)
  }

  /**
   * After activation with versions `v0.9.0` and `v1.0.0` present, only
   * `v1.0.0`, the current one, remains.
   */
  lemma ActivateDropsOldVersion(stale: map<string, Response>, cur: map<string, Response>)
    ensures Activate([Generation("juriste-virtuel-v0.9.0", stale), Generation(CurrentGeneration, cur)])
         == [Generation(CurrentGeneration, cur)]
  {
    var s := [Generation("juriste-virtuel-v0.9.0", stale), Generation(CurrentGeneration, cur)];
    assert s[0].name[17] != s[1].name[17];
    assert Names(s) == [s[0].name, s[1].name];
    assert Delete(s[1..], s[0].name) == [s[1]];
    assert Delete(s, s[0].name) == [s[1]];
    assert DeleteStale([s[1]], [s[1].name]) == [s[1]];
  }

  // ---------------------------------------------------------------------
  // message, push, notificationclick

  /** `event.data && event.data.type === 'SKIP_WAITING'`, with `None` for undefined data. */
  function SkipWaitingRequested(data: Option<Json>): (b: bool)
    ensures b <==> data.Some? && data.value.JObject? && Lookup(data.value.members, "type") == Some(JString("SKIP_WAITING"))
  {
    data.Some? && JsTruthy(data.value) && PropertyType(data.value) == Some(JString("SKIP_WAITING"))
  }

  /** `v.type`: only an object has an own `type` member. */
  function PropertyType(v: Json): Option<Json> {
    match v
    case JObject(members) => Lookup(members, "type")
    case _ => None
  }

  const DefaultPushBody: string := "New legal information available"

  datatype Action = Action(action: string, title: string, icon: string)

  datatype Notification = Notification(title: string, body: string, icon: string, badge: string, vibrate: seq<int>, actions: seq<Action>)

  /**
   * The notification the `push` listener shows. `payload` is the push
   * data's text, `None` when the push carried no data; an empty payload is
   * still data, so it does not get the default body.
   */
  function PushNotification(payload: Option<string>): (n: Notification)
    ensures payload.Some? ==> n.body == payload.value
    ensures payload.None? ==> n.body == DefaultPushBody
    ensures |n.actions| == 2 && n.actions[0].action == "explore" && n.actions[1].action == "close"
  {
    var body := if payload.Some? then payload.value else DefaultPushBody;
    Notification("Juriste Virtuel", body, "/static/img/icon-192x192.png", "/static/img/icon-72x72.png", [100, 50, 100],
                 [Action("explore", "View Details", "/static/img/icon-192x192.png"),
                  Action("close", "Close", "/static/img/icon-192x192.png")])
  }

  datatype ClickEffect = ClickEffect(closes: bool, opensWindow: Option<string>)

  /** The `notificationclick` listener: always close; open the app root only for `explore`. */
  function NotificationClick(action: string): (e: ClickEffect)
    ensures e.closes
    ensures e.opensWindow.Some? <==> action == "explore"
    ensures e.opensWindow.Some? ==> e.opensWindow.value == "/"
  {
    ClickEffect(true, if action == "explore" then Some("/") else None)
  }

  /**
   * Of the two actions a push notification offers, the first opens the app
   * root and the second only closes the notification; so does a click on
   * the notification's body (empty action).
   */
  lemma OfferedActionsOnClick(payload: Option<string>)
    ensures var n := PushNotification(payload);
            NotificationClick(n.actions[0].action).opensWindow == Some("/") &&
            NotificationClick(n.actions[1].action).opensWindow == None &&
            NotificationClick("").opensWindow == None
  {
  }
}

=== FILE: mobile_api.dfy ===
/**
 * The JSON API of the mobile app (`app_mobile.py`): the chat endpoint with
 * its CORS preflight, validation and error mapping, the feedback endpoint,
 * the 404/500 handlers, and the server's port setting.
 */
module MobileApi {
  import opened Wrappers
  import opened Json
  import opened Python
  import opened Flask

  const ModelName: string := "gpt-3.5-turbo"

  /** The longest question, in characters after stripping, the chat accepts. */
  const MaxQuestionLength: nat := 1000

  const PreflightHeaders: seq<(string, string)> := [
    ("Access-Control-Allow-Origin", "*"),
    ("Access-Control-Allow-Headers", "Content-Type"),
    ("Access-Control-Allow-Methods", "POST")
  ]

  datatype ChatMethod = Options | Post

  /** The `code` of an error reply, if it has one. */
  function CodeOf(r: HttpReply): Option<string> {
    if r.body.Some? && r.body.value.JObject? then
      match Lookup(r.body.value.members, "code")
      case Some(JString(c)) => Some(c)
      case _ => None
    else None
  }

  /** The reply of the catch-all `except Exception` clause. */
  const UnexpectedError: HttpReply := HttpReply(500, [], Some(ErrorBody("Une erreur inattendue s'est produite.", "INTERNAL_ERROR")))

  const MissingQuestion: HttpReply := HttpReply(400, [], Some(ErrorBody("Aucune question fournie.", "MISSING_QUESTION")))

  const QuestionTooLong: HttpReply :=
    HttpReply(400, [], Some(ErrorBody("La question est trop longue. Maximum 1000 caractères.", "QUESTION_TOO_LONG")))

  /** An error reply carries its code. */
  lemma CodeOfErrorReply(status: int, message: string, code: string)
    ensures CodeOf(HttpReply(status, [], Some(ErrorBody(message, code)))) == Some(code)
  {
    LookupDistinct([("error", JString(message)), ("code", JString(code))], 1);
  }

  /**
   * The `except` clauses after a failed completion call, tried in order:
   * the first class the exception is an instance of decides the reply.
   */
  function UpstreamFailure(classes: set<ErrorClass>): (r: HttpReply)
    ensures r.headers == [] && (r.status == 500 || r.status == 429) && IsErrorEnvelope(r)
    ensures AuthenticationError in classes ==> r.status == 500 && CodeOf(r) == Some("OPENAI_AUTH_ERROR")
    ensures AuthenticationError !in classes && RateLimitError in classes ==>
              r.status == 429 && CodeOf(r) == Some("RATE_LIMIT_EXCEEDED")
    ensures AuthenticationError !in classes && RateLimitError !in classes && APIError in classes ==>
              r.status == 500 && CodeOf(r) == Some("OPENAI_API_ERROR")
    ensures AuthenticationError !in classes && RateLimitError !in classes && APIError !in classes ==>
              r == UnexpectedError
  {
    if AuthenticationError in classes then
      CodeOfErrorReply(500, "Erreur d'authentification avec l'API OpenAI.", "OPENAI_AUTH_ERROR");
      HttpReply(500, [], Some(ErrorBody("Erreur d'authentification avec l'API OpenAI.", "OPENAI_AUTH_ERROR")))
    else if RateLimitError in classes then
      CodeOfErrorReply(429, "Limite de requêtes dépassée. Veuillez réessayer plus tard.", "RATE_LIMIT_EXCEEDED");
      HttpReply(429, [], Some(ErrorBody("Limite de requêtes dépassée. Veuillez réessayer plus tard.", "RATE_LIMIT_EXCEEDED")))
    else if APIError in classes then
      CodeOfErrorReply(500, "Erreur de l'API OpenAI. Veuillez réessayer.", "OPENAI_API_ERROR");
      HttpReply(500, [], Some(ErrorBody("Erreur de l'API OpenAI. Veuillez réessayer.", "OPENAI_API_ERROR")))
    else
      UnexpectedError
  }

  /** The question is one the chat forwards: present, not blank, at most 1000 characters. */
  ghost predicate Admissible(data: Json) {
    data.JObject? && !BlankQuestion(data.members) && |QuestionOf(data.members)| <= MaxQuestionLength
  }

  /**
   * `POST`/`OPTIONS /api/chat`. `body` is the parsed request body, `upstream`
   * what the completion call would do, `now` the ISO timestamp.
   */
  function Chat(verb: ChatMethod, body: RequestBody, upstream: Upstream, now: string): (r: HttpReply)
    // preflight: the three CORS headers, an empty body, nothing read
    ensures verb == Options ==> r == HttpReply(200, PreflightHeaders, None)
    ensures verb == Post ==> r.headers == [] && r.body.Some?
    ensures verb == Post && r.status != 200 ==> IsErrorEnvelope(r)
    // a body that cannot be read, or is neither an object nor falsy, is an unexpected error
    ensures verb == Post && !ReadsObject(body) ==> r == UnexpectedError
    ensures verb == Post && body.TooDeep? ==> r == UnexpectedError
    // validation, empty check first; only these are 400s
    ensures verb == Post ==> (r.status == 400 <==> ReadsObject(body) && !Admissible(RequestData(body).value))
    ensures r == MissingQuestion <==> verb == Post && ReadsObject(body) && BlankQuestion(RequestData(body).value.members)
    ensures r == QuestionTooLong <==>
              verb == Post && ReadsObject(body) && !BlankQuestion(RequestData(body).value.members) &&
              |QuestionOf(RequestData(body).value.members)| > MaxQuestionLength
    // a valid question reaches the completion call
    ensures verb == Post && ReadsObject(body) && Admissible(RequestData(body).value) ==>
              r == (match upstream
                    case Completed(content) => ChatAnswer(RequestData(body).value.members, content, now)
                    case Raised(classes) => UpstreamFailure(classes))
  {
    if verb == Options then
      HttpReply(200, PreflightHeaders, None)
    else
      match RequestData(body)
      case None => UnexpectedError
      case Some(data) =>
        var reply := ChatPost(data, upstream, now);
        assert verb == Post && Some(data) == RequestData(body);
        reply
  }

  /** The body of the `POST` branch, on the request data. */
  function ChatPost(data: Json, upstream: Upstream, now: string): (r: HttpReply)
    ensures r.headers == [] && r.body.Some?
    ensures r.status != 200 ==> IsErrorEnvelope(r)
    ensures !data.JObject? ==> r == UnexpectedError
    ensures r.status == 400 <==> data.JObject? && !Admissible(data)
    ensures r == MissingQuestion <==> data.JObject? && BlankQuestion(data.members)
    ensures r == QuestionTooLong <==> data.JObject? && !BlankQuestion(data.members) && |QuestionOf(data.members)| > MaxQuestionLength
    ensures Admissible(data) ==>
              r == (match upstream
                    case Completed(content) => ChatAnswer(data.members, content, now)
                    case Raised(classes) => UpstreamFailure(classes))
  {
    if !data.JObject? then UnexpectedError
    else
      var question := QuestionOf(data.members);
      QuestionEmptyIffBlank(data.members);
      if question == "" then MissingQuestion
      else if |question| > MaxQuestionLength then QuestionTooLong
      else
        match upstream
        case Completed(content) => ChatAnswer(data.members, content, now)
        case Raised(classes) => UpstreamFailure(classes)
  }

  /**
   * The success reply: the stripped answer, the timestamp, the model, and
   * the caller's `session_id` and `user_id` echoed back, `"default"` and
   * `"anonymous"` when absent.
   */
  function ChatAnswer(members: seq<(string, Json)>, content: string, now: string): (r: HttpReply)
    ensures r.status == 200 && r.headers == [] && r.body.Some? && r.body.value.JObject?
    ensures var m := r.body.value.members;
            && Lookup(m, "answer") == Some(JString(Strip(content)))
            && Lookup(m, "timestamp") == Some(JString(now))
            && Lookup(m, "model_used") == Some(JString(ModelName))
            && Lookup(m, "user_id") == Some(Lookup(members, "user_id").GetOr(JString("anonymous")))
            && Lookup(m, "session_id") == Some(Lookup(members, "session_id").GetOr(JString("default")))
  {
    var fields := [
      ("answer", JString(Strip(content))),
      ("timestamp", JString(now)),
      ("session_id", Get(members, "session_id", JString("default"))),
      ("user_id", Get(members, "user_id", JString("anonymous"))),
      ("model_used", JString(ModelName))
    ];
    LookupDistinct(fields, 0);
    LookupDistinct(fields, 1);
    LookupDistinct(fields, 2);
    LookupDistinct(fields, 3);
    LookupDistinct(fields, 4);
    HttpReply(200, [], Some(JObject(fields)))
  }

  /** The completion service is consulted only for a valid question: a rejected request gets the same reply whatever it would do. */
  lemma RejectedChatSkipsUpstream(body: RequestBody, u1: Upstream, u2: Upstream, now: string)
    requires !ReadsObject(body) || !Admissible(RequestData(body).value)
    ensures Chat(Post, body, u1, now) == Chat(Post, body, u2, now)
  {
  }

  /**
   * A question with no edge whitespace is rejected as too long exactly when
   * it has more than 1000 characters: 1000 passes, 1001 does not.
   */
  lemma QuestionLengthBoundary(q: string, upstream: Upstream, now: string)
    requires q != "" && !IsSpace(q[0]) && !IsSpace(q[|q| - 1])
    ensures var r := Chat(Post, Parsed(JObject([("question", JString(q))])), upstream, now);
            (r == QuestionTooLong <==> |q| > MaxQuestionLength) && (r.status == 400 <==> |q| > MaxQuestionLength)
  {
    AskingAlone(q);
  }

  /** A JSON `null` question reads as the text "None", so it is asked rather than reported missing. */
  lemma NullQuestionIsAsked(upstream: Upstream, now: string)
    ensures QuestionOf([("question", JNull)]) == "None"
    ensures Chat(Post, Parsed(JObject([("question", JNull)])), upstream, now) != MissingQuestion
  {
    var members := [("question", JNull)];
    assert RequestData(Parsed(JObject(members))) == Some(JObject(members));
    LookupDistinct(members, 0);
    assert Get(members, "question", JString("")) == JNull;
    StripPadded("", "None", "");
    assert "" + "None" + "" == "None";
  }

  /** A body holding only a question with no edge whitespace asks exactly that question. */
  lemma AskingAlone(q: string)
    requires q != "" && !IsSpace(q[0]) && !IsSpace(q[|q| - 1])
    ensures var data := RequestData(Parsed(JObject([("question", JString(q))])));
            data.Some? && data.value.JObject? && !BlankQuestion(data.value.members) && QuestionOf(data.value.members) == q
  {
    var members := [("question", JString(q))];
    assert RequestData(Parsed(JObject(members))) == Some(JObject(members));
    LookupDistinct(members, 0);
    assert Lookup(members, "question") == Some(JString(q));
    assert !IsSpace(q[0]);
    StripClean(q);
  }

  // ---------------------------------------------------------------------
  // feedback

  /** `isinstance(v, int)`: booleans are integers in Python. */
  predicate IsPyInt(v: Json) {
    v.JInt? || v.JBool?
  }

  /** The integer value of an int or bool. */
  function PyIntValue(v: Json): int
    requires IsPyInt(v)
  {
    match v
    case JInt(i) => i
    case JBool(b) => if b then 1 else 0
  }

  /** A rating the endpoint accepts, stated on its own: an integer 1 to 5, or `true` (which is 1). */
  ghost predicate AcceptableRating(v: Option<Json>) {
    v == Some(JBool(true)) || (v.Some? && v.value.JInt? && 1 <= v.value.i <= 5)
  }

  /** `POST /api/feedback`: validate the rating and echo it. */
  function Feedback(body: RequestBody, now: string): (r: HttpReply)
    ensures !ReadsObject(body) ==> r.status == 500 && CodeOf(r) == Some("FEEDBACK_ERROR")
    ensures body.TooDeep? ==> r.status == 500 && CodeOf(r) == Some("FEEDBACK_ERROR")
    ensures ReadsObject(body) ==>
              (r.status == 200 <==> AcceptableRating(Lookup(RequestData(body).value.members, "rating")))
    ensures ReadsObject(body) && r.status != 200 ==> r.status == 400 && CodeOf(r) == Some("INVALID_RATING")
    ensures r.status != 200 ==> IsErrorEnvelope(r)
    ensures r.status == 200 ==>
              r.body.Some? && r.body.value.JObject? &&
              ReadsObject(body) && Lookup(r.body.value.members, "rating") == Lookup(RequestData(body).value.members, "rating")
  {
    match RequestData(body)
    case None => FeedbackError
    case Some(data) =>
      if !data.JObject? then FeedbackError
      else
        var rating := Get(data.members, "rating", JNull);
        if !PyTruthy(rating) || !IsPyInt(rating) || PyIntValue(rating) < 1 || PyIntValue(rating) > 5 then
          HttpReply(400, [], Some(ErrorBody("Note invalide. Doit être entre 1 et 5.", "INVALID_RATING")))
        else
          var fields := [("message", JString("Merci pour votre retour !")), ("rating", rating), ("timestamp", JString(now))];
          LookupDistinct(fields, 1);
          HttpReply(200, [], Some(JObject(fields)))
  }

  /** The feedback endpoint's catch-all reply. */
  const FeedbackError: HttpReply :=
    HttpReply(500, [], Some(ErrorBody("Erreur lors de l'enregistrement du retour.", "FEEDBACK_ERROR")))

  // ---------------------------------------------------------------------
  // error handlers

  /** The 404 handler. */
  function NotFound(): (r: HttpReply)
    ensures r.status == 404 && CodeOf(r) == Some("NOT_FOUND") && IsErrorEnvelope(r)
  {
    HttpReply(404, [], Some(ErrorBody("Endpoint non trouvé.", "NOT_FOUND")))
  }

  /** The 500 handler: same code as the chat's catch-all, different message. */
  function InternalError(): (r: HttpReply)
    ensures r.status == 500 && CodeOf(r) == Some("INTERNAL_ERROR") && IsErrorEnvelope(r)
    ensures r != UnexpectedError
  {
    HttpReply(500, [], Some(ErrorBody("Erreur interne du serveur.", "INTERNAL_ERROR")))
  }

  /** An `{error, code}` body with nothing else in it. */
  predicate IsErrorEnvelope(r: HttpReply) {
    r.body.Some? && r.body.value.JObject? && |r.body.value.members| == 2 &&
    r.body.value.members[0].0 == "error" && r.body.value.members[0].1.JString? &&
    r.body.value.members[1].0 == "code" && r.body.value.members[1].1.JString?
  }

  // ---------------------------------------------------------------------
  // server settings

  /**
   * `int(os.environ.get("PORT", 5000))`: 5000 when unset, the number when
   * it parses, and `None` where the `ValueError` stops the server (an empty
   * or non-numeric setting).
   */
  function ServerPort(env: Option<string>): (r: Option<int>)
    ensures env.None? ==> r == Some(5000)
    ensures env.Some? ==> r == ParseInt(env.value)
  {
    match env
    case None => Some(5000)
    case Some(text) => ParseInt(text)
  }

  /** `os.environ.get("FLASK_ENV") == "development"`. */
  function DebugMode(env: Option<string>): (debug: bool)
    ensures debug <==> env.Some? && env.value == "development"
  {
    env == Some("development")
  }

  /** The test is exact: an unset variable, another case or surrounding whitespace all leave debugging off. */
  lemma DebugIsExact()
    ensures !DebugMode(None) && !DebugMode(Some("Development")) && !DebugMode(Some("development "))
  {
    assert "Development"[0] != "development"[0];
    assert |"development "| != |"development"|;
  }

  /** A port written as a number within the digit limit is used as is; an empty setting is fatal here. */
  lemma ServerPortOfNumber(n: int)
    requires DigitsOf(n) <= MaxStrDigits
    ensures ServerPort(Some(Text.IntToDecimal(n))) == Some(n)
    ensures ServerPort(Some("")) == None
  {
    ParseIntRoundTrip(n, "", "");
    assert "" + Text.IntToDecimal(n) + "" == Text.IntToDecimal(n);
    assert Strip("") == "";
    assert !DigitGroup("");
  }

  /** A number of more than `MaxStrDigits` digits stops the server. */
  lemma ServerPortTooLong(n: int)
    requires DigitsOf(n) > MaxStrDigits
    ensures ServerPort(Some(Text.IntToDecimal(n))) == None
  {
    var d := Text.IntToDecimal(n);
    DecimalEdges(n);
    StripClean(d);
    ParseSignedTooLong(n);
  }

  /** An information separator before the digits stops the server, though `str.strip()` would remove it. */
  lemma ServerPortSeparator(n: int)
    ensures ServerPort(Some("\U{1C}" + Text.IntToDecimal(n))) == None
    ensures Strip("\U{1C}" + Text.IntToDecimal(n)) == Text.IntToDecimal(n)
  {
    var text := "\U{1C}" + Text.IntToDecimal(n);
    assert IsSeparator(text[0]);
    DecimalEdges(n);
    StripPadded("\U{1C}", Text.IntToDecimal(n), "");
    assert "\U{1C}" + Text.IntToDecimal(n) + "" == text;
  }
}

=== FILE: offline.dfy ===
/**
 * The offline answer the worker synthesises for an API call it cannot
 * complete: a language-indexed message table with a French default, a
 * language detector that is a stub, and the JSON envelope around them.
 */
module Offline {
  import opened Wrappers
  import opened Json
  import opened Fetch

  const DefaultLanguage: string := "fr"

  /** The ten language codes the message table knows, in table order. */
  const Codes: seq<string> := ["fr", "en", "es", "ar", "pt", "de", "it", "zh", "ru", "ja"]

  const MessageFr: string := "Vous êtes actuellement hors ligne. Veuillez vérifier votre connexion Internet et réessayer. Les informations en cache sont disponibles mais les nouvelles questions nécessitent une connexion Internet."
  const MessageEn: string := "You are currently offline. Please check your internet connection and try again. Cached information is available but new questions require an internet connection."
  const MessageEs: string := "Actualmente estás sin conexión. Verifica tu conexión a Internet e inténtalo de nuevo. La información en caché está disponible, pero las nuevas preguntas requieren una conexión a Internet."
  const MessageAr: string := "أنت غير متصل حالياً. يرجى التحقق من اتصالك بالإنترنت والمحاولة مرة أخرى. المعلومات المخزنة مؤقتاً متاحة ولكن الأسئلة الجديدة تتطلب اتصالاً بالإنترنت."
  const MessagePt: string := "Você está atualmente offline. Verifique sua conexão com a internet e tente novamente. As informações em cache estão disponíveis, mas novas perguntas requerem uma conexão com a internet."
  const MessageDe: string := "Sie sind derzeit offline. Überprüfen Sie Ihre Internetverbindung und versuchen Sie es erneut. Zwischengespeicherte Informationen sind verfügbar, aber neue Fragen erfordern eine Internetverbindung."
  const MessageIt: string := "Attualmente sei offline. Controlla la tua connessione internet e riprova. Le informazioni memorizzate nella cache sono disponibili ma le nuove domande richiedono una connessione internet."
  const MessageZh: string := "您当前处于离线状态。请检查您的互联网连接并重试。缓存信息可用，但新问题需要互联网连接。"
  const MessageRu: string := "Вы сейчас не в сети. Проверьте подключение к Интернету и попробуйте снова. Кэшированная информация доступна, но новые вопросы требуют подключения к Интернету."
  const MessageJa: string := "現在オフラインです。インターネット接続を確認して再試行してください。キャッシュされた情報は利用できますが、新しい質問にはインターネット接続が必要です。"

  /** The offline notice per language. */
  const Messages: map<string, string> := map[
    "fr" := MessageFr,
    "en" := MessageEn,
    "es" := MessageEs,
    "ar" := MessageAr,
    "pt" := MessagePt,
    "de" := MessageDe,
    "it" := MessageIt,
    "zh" := MessageZh,
    "ru" := MessageRu,
    "ja" := MessageJa
  ]

  /**
   * Own and inherited members of `Object.prototype`: a lookup of these in an
   * object literal yields a function or an object, not a message.
   */
  const ObjectPrototypeKeys: set<string> := {
    "constructor", "__proto__", "hasOwnProperty", "isPrototypeOf",
    "propertyIsEnumerable", "toLocaleString", "toString", "valueOf",
    "__defineGetter__", "__defineSetter__", "__lookupGetter__", "__lookupSetter__"
  }

  /**
   * `getOfflineMessage(language = 'fr')`: `None` is an omitted (undefined)
   * argument; `messages[language] || messages.fr` falls back to French for
   * any code without a (non-empty) entry.
   */
  function OfflineMessage(language: Option<string>): (m: string)
    requires language.None? || language.value !in ObjectPrototypeKeys
    ensures m in Messages.Values && |m| > 0
    ensures language.Some? && language.value in Codes ==> m == Messages[language.value]
    ensures language.None? || language.value !in Codes ==> m == MessageFr
  {
    var code := language.GetOr(DefaultLanguage);
    if code in Messages && Messages[code] != "" then Messages[code] else Messages[DefaultLanguage]
  }

  /** The table holds exactly the ten codes. */
  lemma MessageTableIsExact()
    ensures Messages.Keys == set c | c in Codes
  {
  }

  /**
   * Every known code other than `fr` gets its own text, not the French
   * default; every other code, and an omitted argument, gets the French one.
   */
  lemma OfflineMessageDefaultsOnlyForUnknownCodes(c: string)
    requires c !in ObjectPrototypeKeys
    ensures OfflineMessage(Some(c)) == OfflineMessage(None) <==> c !in Codes || c == "fr"
  {
    TranslationsDiffer();
  }

  /** The nine translations all differ from the French text (their lengths do). */
  lemma TranslationsDiffer()
    ensures forall c :: c in Messages && c != "fr" ==> Messages[c] != MessageFr
  {
    assert |MessageFr| == 199;
    assert |MessageEn| == 161 && |MessageEs| == 187 && |MessageAr| == 149;
    assert |MessagePt| == 185 && |MessageDe| == 196 && |MessageIt| == 187;
    assert |MessageZh| == 43 && |MessageRu| == 158 && |MessageJa| == 75;
  }

  /**
   * `getLanguageFromRequest`: reads neither URL nor body and answers French
   * on every path, including the one where `new URL` throws.
   */
  function LanguageOf(request: Request): (code: string)
    ensures code == DefaultLanguage
  {
    DefaultLanguage
  }

  /** Detection ignores the request, and the code it gives selects the French text. */
  lemma DetectionIgnoresRequest(a: Request, b: Request)
    ensures LanguageOf(a) == LanguageOf(b) && LanguageOf(a) in Codes
    ensures OfflineMessage(Some(LanguageOf(a))) == MessageFr
  {
  }

  const JsonContentType: seq<(string, string)> := [("Content-Type", "application/json")]

  /**
   * The fallback response of the network-first path: status 200, JSON
   * content type, body `{"answer": <message>, "detected_language": <code>}`
   * where the code is the detected language or `fr` when that is empty.
   */
  function OfflineEnvelope(request: Request): (r: Response)
    ensures r.status == 200 && r.rtype == Default
    ensures r.headers == JsonContentType
    ensures r.body == StringifyStrings([("answer", MessageFr), ("detected_language", "fr")])
  {
    var language := LanguageOf(request);
    var detected := if language == "" then DefaultLanguage else language;
    var message := OfflineMessage(Some(language));
    assert message == Messages["fr"] == MessageFr;
    Response(200, Default, JsonContentType, StringifyStrings([("answer", message), ("detected_language", detected)]))
  }
}

=== FILE: python.dfy ===
/**
 * The few Python built-ins the two Flask apps apply to request data:
 * `str.strip()`, `str(value)` of a parsed JSON value, and `int(text)`.
 */
module Python {
  import opened Wrappers
  import opened Text
  import opened Json

  /** `c.isspace()`: the characters `str.strip()` and `int()` remove. */
  predicate IsSpace(c: char) {
    ('\t' <= c <= '\r') || ('\U{1C}' <= c <= ' ') || c == '\U{85}' || c == '\U{A0}' ||
    c == '\U{1680}' || ('\U{2000}' <= c <= '\U{200A}') || c == '\U{2028}' || c == '\U{2029}' ||
    c == '\U{202F}' || c == '\U{205F}' || c == '\U{3000}'
  }

  /** How many whitespace characters open `s`. */
  function LeadingSpaces(s: string): (n: nat)
    ensures n <= |s|
    ensures forall k :: 0 <= k < n ==> IsSpace(s[k])
    ensures n < |s| ==> !IsSpace(s[n])
  {
    if |s| == 0 || !IsSpace(s[0]) then 0 else 1 + LeadingSpaces(s[1..])
  }

  /** How many whitespace characters close `s`. */
  function TrailingSpaces(s: string): (n: nat)
    ensures n <= |s|
    ensures forall k :: |s| - n <= k < |s| ==> IsSpace(s[k])
    ensures n < |s| ==> !IsSpace(s[|s| - 1 - n])
  {
    if |s| == 0 || !IsSpace(s[|s| - 1]) then 0 else 1 + TrailingSpaces(s[..|s| - 1])
  }

  /** `t` is the slice of `s` at `i` and everything of `s` around it is whitespace. */
  ghost predicate CoreAt(s: string, t: string, i: int) {
    && 0 <= i && i + |t| <= |s| && s[i..i + |t|] == t
    && (forall k :: 0 <= k < i ==> IsSpace(s[k]))
    && (forall k :: i + |t| <= k < |s| ==> IsSpace(s[k]))
  }

  /**
   * `s.strip()`: the part of `s` between its leading and its trailing
   * whitespace, which itself neither starts nor ends with whitespace.
   */
  function Strip(s: string): (t: string)
    ensures |t| <= |s|
    ensures t != "" ==> !IsSpace(t[0]) && !IsSpace(t[|t| - 1])
    ensures exists i :: CoreAt(s, t, i)
  {
    var i := LeadingSpaces(s);
    var rest := s[i..];
    var n := TrailingSpaces(rest);
    var t := rest[..|rest| - n];
    StripCore(s, i, rest, n, t);
    t
  }

  /** The facts that make `Strip`'s slice the stripped text. */
  lemma StripCore(s: string, i: nat, rest: string, n: nat, t: string)
    requires i == LeadingSpaces(s) && rest == s[i..]
    requires n == TrailingSpaces(rest) && t == rest[..|rest| - n]
    ensures t != "" ==> !IsSpace(t[0]) && !IsSpace(t[|t| - 1])
    ensures CoreAt(s, t, i)
  {
    assert s[i..i + |t|] == t;
    TrailingSpacesOfSuffix(s, i, rest, n);
    if t != "" {
      assert t[0] == rest[0];
      assert t[|t| - 1] == rest[|rest| - 1 - n];
    }
  }

  /** The whitespace closing a suffix of `s` closes `s` itself. */
  lemma TrailingSpacesOfSuffix(s: string, i: nat, rest: string, n: nat)
    requires i <= |s| && rest == s[i..] && n == TrailingSpaces(rest)
    ensures forall k :: |s| - n <= k < |s| ==> IsSpace(s[k])
  {
    forall k | |s| - n <= k < |s|
      ensures IsSpace(s[k])
    {
      assert s[k] == rest[k - i];
    }
  }

  /** A string strips to nothing exactly when it is all whitespace. */
  lemma StripEmptyIffAllSpace(s: string)
    ensures Strip(s) == "" <==> forall k :: 0 <= k < |s| ==> IsSpace(s[k])
  {
    if forall k :: 0 <= k < |s| ==> IsSpace(s[k]) {
      assert LeadingSpaces(s) == |s|;
    }
    if Strip(s) == "" {
      var i :| CoreAt(s, "", i);
    }
  }

  /** Stripping twice is stripping once. */
  lemma StripIdempotent(s: string)
    ensures Strip(Strip(s)) == Strip(s)
  {
    var t := Strip(s);
    if t != "" {
      assert LeadingSpaces(t) == 0;
      assert TrailingSpaces(t) == 0;
      assert t[0..][..|t|] == t;
    }
  }

  // ---------------------------------------------------------------------
  // str() and repr()

  /** `repr(s)` picks double quotes only when `s` has a single quote and no double quote. */
  function ReprQuote(s: string): char {
    if '\'' in s && '"' !in s then '"' else '\''
  }

  /** One character of `repr(s)` between quotes `q`. */
  function ReprChar(c: char, q: char): string {
    if c == q || c == '\\' then ['\\', c]
    else if c == '\t' then "\\t"
    else if c == '\n' then "\\n"
    else if c == '\r' then "\\r"
    else if c < ' ' || c == '\U{7F}' then "\\x" + [HexDigit(c as int / 16), HexDigit(c as int % 16)]
    else [c]
  }

  function ReprBody(s: string, q: char): string {
    if |s| == 0 then "" else ReprChar(s[0], q) + ReprBody(s[1..], q)
  }

  function ReprString(s: string): (r: string)
    ensures |r| >= 2 && r[0] == r[|r| - 1] == ReprQuote(s)
  {
    var q := ReprQuote(s);
    [q] + ReprBody(s, q) + [q]
  }

  /** `repr(v)` of a parsed JSON value, as it appears inside a list or a dict. */
  function Repr(v: Json): (r: string)
    ensures |r| > 0 && !IsSpace(r[0]) && !IsSpace(r[|r| - 1])
    decreases v
  {
    match v
    case JNull => "None"
    case JBool(b) => if b then "True" else "False"
    case JInt(i) => IntToDecimal(i)
    case JString(s) => ReprString(s)
    case JArray(items) =>
      "[" + Join(seq(|items|, i requires 0 <= i < |items| => Repr(items[i])), ", ") + "]"
    case JObject(members) =>
      var keys := Keys(members);
      "{" + Join(seq(|keys|, i requires 0 <= i < |keys| => ReprMember(members, keys[i], v)), ", ") + "}"
  }

  /** `repr(k): repr(d[k])` for a key of the dict parsed from `members`. */
  function ReprMember(members: seq<(string, Json)>, key: string, ghost parent: Json): string
    requires parent == JObject(members)
    requires key in Keys(members)
    decreases parent, 0
  {
    var j := LastIndex(members, key).value;
    ReprString(key) + ": " + Repr(members[j].1)
  }

  /** `str(v)`: a string is itself, anything else is its `repr`. */
  function Str(v: Json): (r: string)
    ensures v.JString? ==> r == v.s
    ensures !v.JString? ==> |r| > 0 && !IsSpace(r[0])
  {
    match v
    case JString(s) => s
    case _ => Repr(v)
  }

  /**
   * `str(v).strip()` is empty exactly when `v` is a string of whitespace:
   * `None`, booleans, numbers and containers never are.
   */
  lemma StrStripEmpty(v: Json)
    ensures Strip(Str(v)) == "" <==> v.JString? && forall k :: 0 <= k < |v.s| ==> IsSpace(v.s[k])
  {
    StripEmptyIffAllSpace(Str(v));
  }

  // ---------------------------------------------------------------------
  // int()

  /** Python's base-10 digit group: digits, with single underscores between digits. */
  predicate DigitGroup(d: string) {
    && |d| > 0 && IsDigit(d[0]) && IsDigit(d[|d| - 1])
    && (forall k :: 0 <= k < |d| ==> IsDigit(d[k]) || d[k] == '_')
    && (forall k :: 0 <= k < |d| - 1 ==> !(d[k] == '_' && d[k + 1] == '_'))
  }

  /** The value of a digit group, underscores ignored. */
  function GroupValue(d: string): nat
    requires forall k :: 0 <= k < |d| ==> IsDigit(d[k]) || d[k] == '_'
  {
    if |d| == 0 then 0
    else if d[|d| - 1] == '_' then GroupValue(d[..|d| - 1])
    else GroupValue(d[..|d| - 1]) * 10 + DigitValue(d[|d| - 1])
  }

  /**
   * The ASCII information separators U+001C to U+001F: whitespace to
   * `str.isspace()`, but `int()` neither skips nor reads them, since it
   * only skips ASCII `\t\n\v\f\r` and the space (after mapping
   * non-ASCII whitespace to a space).
   */
  predicate IsSeparator(c: char) {
    '\U{1C}' <= c <= '\U{1F}'
  }

  /** The whitespace `int()` skips around its digits. */
  predicate IsIntSpace(c: char) {
    IsSpace(c) && !IsSeparator(c)
  }

  /**
   * `int(text)`: `None` where Python raises `ValueError`. Only ASCII digits
   * are modelled. A separator anywhere is fatal; without one, `str.strip()`
   * removes exactly what `int()` skips.
   */
  function ParseInt(text: string): (r: Option<int>)
    ensures r.Some? ==> Strip(text) != ""
    ensures r.Some? ==> forall k :: 0 <= k < |text| ==> !IsSeparator(text[k])
  {
    if exists k :: 0 <= k < |text| && IsSeparator(text[k]) then None
    else ParseSigned(Strip(text))
  }

  /** A character outside digits, `_`, the signs and `int()`'s whitespace makes `int()` fail. */
  lemma ParseIntRejects(text: string, k: nat)
    requires k < |text|
    requires !IsDigit(text[k]) && text[k] != '_' && text[k] != '+' && text[k] != '-' && !IsIntSpace(text[k])
    ensures ParseInt(text) == None
  {
    if !IsSeparator(text[k]) {
      var t := Strip(text);
      var i :| CoreAt(text, t, i);
      assert i <= k < i + |t|;
      assert t[k - i] == text[k];
      if |t| > 0 && (t[0] == '+' || t[0] == '-') {
        assert k - i > 0;
        assert t[1..][k - i - 1] == text[k];
      }
    }
  }

  /**
   * `sys.get_int_max_str_digits()` at its default: `int()` refuses decimal
   * text with more digits than this (leading zeros count; the sign and
   * underscores do not).
   */
  const MaxStrDigits: nat := 4300

  /** How many characters of `d` are digits. */
  function DigitCount(d: string): (c: nat)
    ensures c <= |d|
  {
    if |d| == 0 then 0
    else DigitCount(d[..|d| - 1]) + (if IsDigit(d[|d| - 1]) then 1 else 0)
  }

  /** A text made only of digits has as many digits as characters. */
  lemma {:induction false} DigitCountAllDigits(d: string)
    requires forall k :: 0 <= k < |d| ==> IsDigit(d[k])
    ensures DigitCount(d) == |d|
  {
    if |d| > 0 {
      DigitCountAllDigits(d[..|d| - 1]);
    }
  }

  /** A digit group `int()` reads: well formed and no longer than the digit limit. */
  predicate ReadableGroup(d: string) {
    DigitGroup(d) && DigitCount(d) <= MaxStrDigits
  }

  /**
   * An optional sign followed by one digit group of at most `MaxStrDigits`
   * digits; anything else is rejected.
   */
  function ParseSigned(t: string): (r: Option<int>)
    ensures r.Some? <==> ReadableGroup(t) || (|t| > 0 && (t[0] == '+' || t[0] == '-') && ReadableGroup(t[1..]))
  {
    if |t| > 0 && (t[0] == '+' || t[0] == '-') then
      if ReadableGroup(t[1..]) then
        var n: int := GroupValue(t[1..]);
        Some(if t[0] == '-' then -n else n)
      else None
    else if ReadableGroup(t) then Some(GroupValue(t))
    else None
  }

  /** The number of digits of `n`'s decimal text, the sign left out. */
  function DigitsOf(n: int): nat {
    |NatToDigits(if n < 0 then -n else n)|
  }

  /** The digits of a number read back as that number. */
  lemma {:induction false} DigitsRoundTrip(n: nat)
    ensures DigitGroup(NatToDigits(n)) && GroupValue(NatToDigits(n)) == n
  {
    var d := NatToDigits(n);
    if n >= 10 {
      DigitsRoundTrip(n / 10);
      assert d[..|d| - 1] == NatToDigits(n / 10);
    }
  }

  /** `int(str(n)) == n` within the digit limit, also with the whitespace `int()` skips around the text. */
  lemma ParseIntRoundTrip(n: int, pad1: string, pad2: string)
    requires DigitsOf(n) <= MaxStrDigits
    requires forall k :: 0 <= k < |pad1| ==> IsIntSpace(pad1[k])
    requires forall k :: 0 <= k < |pad2| ==> IsIntSpace(pad2[k])
    ensures ParseInt(pad1 + IntToDecimal(n) + pad2) == Some(n)
  {
    var d := IntToDecimal(n);
    var text := pad1 + d + pad2;
    DecimalEdges(n);
    forall k | 0 <= k < |text|
      ensures !IsSeparator(text[k])
    {
      if k < |pad1| {
        assert text[k] == pad1[k];
      } else if k < |pad1| + |d| {
        assert text[k] == d[k - |pad1|];
      } else {
        assert text[k] == pad2[k - |pad1| - |d|];
      }
    }
    StripPadded(pad1, d, pad2);
    ParseSignedDecimal(n);
  }

  /** The decimal text of an integer is a sign or digits, starting with neither whitespace nor a separator and ending with a digit. */
  lemma DecimalEdges(n: int)
    ensures var d := IntToDecimal(n);
            && d != "" && !IsSpace(d[0]) && IsDigit(d[|d| - 1]) && !IsSpace(d[|d| - 1])
            && forall k :: 0 <= k < |d| ==> IsDigit(d[k]) || d[k] == '-'
  {
    var d := IntToDecimal(n);
    if n < 0 {
      var digits := NatToDigits(-n);
      assert forall k :: 1 <= k < |d| ==> d[k] == digits[k - 1];
    }
  }

  /** The decimal text of an integer beyond the digit limit is refused, with or without a sign. */
  lemma ParseSignedTooLong(n: int)
    requires DigitsOf(n) > MaxStrDigits
    ensures ParseSigned(IntToDecimal(n)) == None
  {
    var d := IntToDecimal(n);
    var digits := NatToDigits(if n < 0 then -n else n);
    DigitCountAllDigits(digits);
    if n < 0 {
      assert d == "-" + digits;
      assert d[1..] == digits;
    } else {
      assert d == digits;
    }
  }

  /** The decimal text of an integer within the digit limit reads back as that integer. */
  lemma ParseSignedDecimal(n: int)
    requires DigitsOf(n) <= MaxStrDigits
    ensures ParseSigned(IntToDecimal(n)) == Some(n)
  {
    var d := IntToDecimal(n);
    var m: nat := if n < 0 then -n else n;
    var digits := NatToDigits(m);
    DigitsRoundTrip(m);
    DigitCountAllDigits(digits);
    if n < 0 {
      assert d == "-" + digits;
      assert d[1..] == digits;
    } else {
      assert d == digits;
      assert IsDigit(d[0]);
    }
  }

  /** Text with no edge whitespace is its own strip. */
  lemma StripClean(t: string)
    requires t != "" && !IsSpace(t[0]) && !IsSpace(t[|t| - 1])
    ensures Strip(t) == t
  {
    StripPadded("", t, "");
    assert "" + t + "" == t;
  }

  /** Stripping text padded with whitespace gives the text back, when it has no edge whitespace. */
  lemma StripPadded(pad1: string, t: string, pad2: string)
    requires forall k :: 0 <= k < |pad1| ==> IsSpace(pad1[k])
    requires forall k :: 0 <= k < |pad2| ==> IsSpace(pad2[k])
    requires t != "" && !IsSpace(t[0]) && !IsSpace(t[|t| - 1])
    ensures Strip(pad1 + t + pad2) == t
  {
    var s := pad1 + t + pad2;
    var r := Strip(s);
    var i :| CoreAt(s, r, i);
    assert s[|pad1|] == t[0];
    assert s[|pad1| + |t| - 1] == t[|t| - 1];
    assert i == |pad1|;
    assert i + |r| == |pad1| + |t|;
    assert r == s[|pad1|..|pad1| + |t|];
  }
}

=== FILE: strategies.dfy ===
/**
 * The worker's `fetch` listener: routing of an intercepted request and the
 * two strategies it dispatches to. Every handled request ends in one of four
 * terminal replies: the network's response, a cached response, the
 * synthesised offline envelope, or no response at all.
 */
module Strategies {
  import opened Wrappers
  import opened Text
  import opened Fetch
  import opened CacheStore
  import opened Offline
  import opened Json

  /** The URL marker of the API calls. */
  const ApiMarker: string := "/ask"

  /** The path whose cached copy stands in for any page when offline. */
  const RootPath: string := "/"

  datatype Strategy = PassThrough | NetworkFirst | CacheFirst

  /**
   * The routing decision, made before any I/O from the method and the full
   * URL (query and host included) only.
   */
  function Route(request: Request): (s: Strategy)
    ensures s == PassThrough <==> request.verb != "GET"
    ensures s == NetworkFirst <==> request.verb == "GET" && exists i :: OccursAt(request.url, ApiMarker, i)
    ensures s == CacheFirst <==> request.verb == "GET" && forall i :: !OccursAt(request.url, ApiMarker, i)
  {
    ContainsIffOccurs(request.url, ApiMarker);
    if request.verb != "GET" then PassThrough
    else if Contains(request.url, ApiMarker) then NetworkFirst
    else CacheFirst
  }

  /** What the page receives for an intercepted request. */
  datatype Reply =
    | NotHandled                        // the listener returned without `respondWith`
    | FromNetwork(response: Response)
    | FromCache(response: Response)
    | Synthesized(response: Response)
    | NoResponse                        // `respondWith` got undefined: the page sees a network error

  datatype Handled = Handled(reply: Reply, store: Store)

  /**
   * Network-first: a status-200 response passes through untouched; any
   * other status and a thrown fetch both become the offline envelope.
   */
  function NetworkFirstReply(request: Request, net: NetOutcome): (r: Reply)
    ensures r.FromNetwork? || r.Synthesized?
    ensures r.FromNetwork? <==> net.Delivered? && net.response.status == 200
    ensures r.FromNetwork? ==> r.response == net.response
    ensures r.Synthesized? ==> r.response.status == 200 && r.response.headers == JsonContentType
    ensures r.Synthesized? ==> r.response.body == StringifyStrings([("answer", MessageFr), ("detected_language", "fr")])
  {
    if net.Delivered? && net.response.status == 200 then FromNetwork(net.response)
    else Synthesized(OfflineEnvelope(request))
  }

  /** A fetched response the cache-first path keeps: status 200 and type `basic`. */
  predicate Cacheable(response: Response) {
    response.status == 200 && response.rtype == Basic
  }

  /** The catch branch: pages get the cached root, if any; everything else gets nothing. */
  function OfflinePage(store: Store, origin: string, request: Request): (r: Reply)
    ensures r.FromCache? || r.NoResponse?
    ensures r.FromCache? <==> request.destination == "document" && Match(store, origin + "/").Some?
    ensures r.FromCache? ==> Some(r.response) == Match(store, origin + "/")
  {
    if request.destination == "document" then
      match Match(store, Resolve(origin, RootPath))
      case Some(page) => FromCache(page)
      case None => NoResponse
    else NoResponse
  }

  /**
   * Cache-first. `lookupThrows` says whether `caches.match` rejects; `net`
   * is what `fetch` does if it is reached. The put of a cacheable response
   * is not awaited by the source; here it takes effect at once.
   */
  function CacheFirstReply(store: Store, origin: string, request: Request, lookupThrows: bool, net: NetOutcome): (h: Handled)
    ensures h.reply.FromNetwork? || h.reply.FromCache? || h.reply.NoResponse?
    // hit: the stored response, with the network never consulted
    ensures !lookupThrows && Match(store, request.url).Some? ==>
              h == Handled(FromCache(Match(store, request.url).value), store)
    // miss: the caller always gets what the network delivered
    ensures h.reply.FromNetwork? <==> !lookupThrows && Match(store, request.url).None? && net.Delivered?
    ensures h.reply.FromNetwork? ==> h.reply.response == net.response
    // only a cacheable network response changes the store, and only under its own URL
    ensures h.store != store ==> h.reply.FromNetwork? && Cacheable(h.reply.response)
    ensures h.reply.FromNetwork? ==>
              Match(h.store, request.url) == (if Cacheable(net.response) then Some(net.response) else None)
    ensures forall u :: u != request.url ==> Match(h.store, u) == Match(store, u)
    ensures WellFormed(store) ==> WellFormed(h.store)
    ensures OnlyTouches(store, h.store, CurrentGeneration)
    // failure of the lookup or of the fetch: the offline page rule
    ensures lookupThrows || (Match(store, request.url).None? && net.NetworkError?) ==>
              h == Handled(OfflinePage(store, origin, request), store)
  {
    if !lookupThrows && Match(store, request.url).Some? then
      Handled(FromCache(Match(store, request.url).value), store)
    else if !lookupThrows && net.Delivered? then
      var response := net.response;
      if !Cacheable(response) then Handled(FromNetwork(response), store)
      else
        var store' := Put(store, CurrentGeneration, request.url, response);
        PutThenMatch(store, CurrentGeneration, request.url, response);
        forall u | u != request.url
          ensures Match(store', u) == Match(store, u)
        {
          PutKeepsOtherUrls(store, CurrentGeneration, request.url, response, u);
        }
        Handled(FromNetwork(response), store')
    else
      Handled(OfflinePage(store, origin, request), store)
  }

  /** The `fetch` listener: route, then run the chosen strategy. */
  function HandleFetch(store: Store, origin: string, request: Request, lookupThrows: bool, net: NetOutcome): (h: Handled)
    ensures h.reply.NotHandled? <==> request.verb != "GET"
    ensures h.reply.Synthesized? ==> Route(request) == NetworkFirst
    ensures Route(request) != CacheFirst ==> h.store == store
    ensures forall u :: u != request.url ==> Match(h.store, u) == Match(store, u)
    ensures WellFormed(store) ==> WellFormed(h.store)
    ensures OnlyTouches(store, h.store, CurrentGeneration)
  {
    match Route(request)
    case PassThrough => Handled(NotHandled, store)
    case NetworkFirst => Handled(NetworkFirstReply(request, net), store)
    case CacheFirst => CacheFirstReply(store, origin, request, lookupThrows, net)
  }

  // ---------------------------------------------------------------------
  // Properties of the listener

  /** A request that is not a GET is never answered by the worker, whatever its URL. */
  lemma NonGetPassesThrough(store: Store, origin: string, request: Request, lookupThrows: bool, net: NetOutcome)
    requires request.verb != "GET"
    ensures HandleFetch(store, origin, request, lookupThrows, net) == Handled(NotHandled, store)
  {
  }

  /** The marker counts anywhere in the URL: a GET with `/ask` only in its query is an API call. */
  lemma MarkerInQueryIsApiCall(path: string, query: string, destination: string)
    requires Contains(query, ApiMarker)
    ensures Route(Request("GET", path + "?" + query, destination)) == NetworkFirst
  {
    ContainsInSuffix(path + "?", query, ApiMarker);
    assert path + "?" + query == (path + "?") + query;
  }

  /** The marker also matches a host name that starts with `ask`, since `//ask` contains it. */
  lemma AskHostIsApiCall(rest: string, destination: string)
    ensures Route(Request("GET", "https://ask" + rest, destination)) == NetworkFirst
  {
    var url := "https://ask" + rest;
    assert url[7..11] == ApiMarker;
    OccursImpliesContains(url, ApiMarker, 7);
  }

  /** Routing never looks at the destination. */
  lemma RouteIgnoresDestination(verb: string, url: string, d1: string, d2: string)
    ensures Route(Request(verb, url, d1)) == Route(Request(verb, url, d2))
  {
  }

  /**
   * Network-first, as the caller sees it: a 200 comes back unchanged, and
   * a non-200 status and a thrown fetch are indistinguishable.
   */
  lemma NetworkFailuresLookAlike(store: Store, origin: string, request: Request, lookupThrows: bool, response: Response)
    requires Route(request) == NetworkFirst && response.status != 200
    ensures HandleFetch(store, origin, request, lookupThrows, Delivered(response))
         == HandleFetch(store, origin, request, lookupThrows, NetworkError)
    ensures HandleFetch(store, origin, request, lookupThrows, NetworkError).reply.Synthesized?
  {
  }

  /** A cache hit does not depend on the network: no fetch is made. */
  lemma CacheHitIgnoresNetwork(store: Store, origin: string, request: Request, net1: NetOutcome, net2: NetOutcome)
    requires Route(request) == CacheFirst && Match(store, request.url).Some?
    ensures HandleFetch(store, origin, request, false, net1) == HandleFetch(store, origin, request, false, net2)
    ensures HandleFetch(store, origin, request, false, net1).reply == FromCache(Match(store, request.url).value)
  {
  }

  /**
   * Repeating a static GET whose first answer was a basic 200 from the
   * network is served from the cache, with the same response and whatever
   * the network would now do.
   */
  lemma RepeatAfterCacheableMissIsHit(store: Store, origin: string, request: Request, response: Response, later: NetOutcome)
    requires Route(request) == CacheFirst && Match(store, request.url).None?
    requires Cacheable(response)
    ensures var first := HandleFetch(store, origin, request, false, Delivered(response));
            first.reply == FromNetwork(response) &&
            HandleFetch(first.store, origin, request, false, later) == Handled(FromCache(response), first.store)
  {
  }

  /** A miss answered by a response that is not a basic 200 leaves the store as it was, so the next request misses again. */
  lemma UncacheableMissStoresNothing(store: Store, origin: string, request: Request, response: Response)
    requires Route(request) == CacheFirst && Match(store, request.url).None?
    requires !Cacheable(response)
    ensures HandleFetch(store, origin, request, false, Delivered(response)) == Handled(FromNetwork(response), store)
  {
  }

  /**
   * Offline with no cached copy: a page navigation gets the cached root when
   * there is one and nothing otherwise; any other destination gets nothing.
   */
  lemma OfflineMissFallsBackToRoot(store: Store, origin: string, request: Request)
    requires Route(request) == CacheFirst && Match(store, request.url).None?
    ensures var h := HandleFetch(store, origin, request, false, NetworkError);
            h.store == store &&
            (request.destination != "document" ==> h.reply == NoResponse) &&
            (request.destination == "document" ==>
               (h.reply == NoResponse <==> Match(store, Resolve(origin, RootPath)).None?) &&
               (h.reply.FromCache? ==> Some(h.reply.response) == Match(store, Resolve(origin, RootPath))))
  {
  }
}

=== FILE: text.dfy ===
/**
 * Character-level helpers: substring search (JavaScript `includes`), decimal
 * rendering of integers, and joining.
 */
module Text {

  /** `t` occurs in `s` at index `i`. */
  ghost predicate OccursAt(s: string, t: string, i: int) {
    0 <= i && i + |t| <= |s| && s[i..i + |t|] == t
  }

  predicate IsPrefix(p: string, s: string) {
    |p| <= |s| && s[..|p|] == p
  }

  /** JavaScript `s.includes(t)`: scan every start position of `s`. */
  function Contains(s: string, t: string): bool
    decreases |s|
  {
    IsPrefix(t, s) || (|s| > 0 && Contains(s[1..], t))
  }

  /** Every occurrence of `t` is found by the scan. */
  lemma {:induction false} OccursImpliesContains(s: string, t: string, i: int)
    requires OccursAt(s, t, i)
    ensures Contains(s, t)
    decreases i
  {
    if i == 0 {
      assert s[..|t|] == s[0..|t|];
    } else {
      assert s[1..][i - 1..i - 1 + |t|] == s[i..i + |t|];
      OccursImpliesContains(s[1..], t, i - 1);
    }
  }

  /** The scan only answers yes for a real occurrence, whose index it yields. */
  lemma {:induction false} ContainsImpliesOccurs(s: string, t: string) returns (i: int)
    requires Contains(s, t)
    ensures OccursAt(s, t, i)
    decreases |s|
  {
    if IsPrefix(t, s) {
      i := 0;
      assert s[0..|t|] == s[..|t|];
    } else {
      var j := ContainsImpliesOccurs(s[1..], t);
      assert s[1..][j..j + |t|] == s[j + 1..j + 1 + |t|];
      i := j + 1;
    }
  }

  /** `Contains` is substring search, in both directions. */
  lemma ContainsIffOccurs(s: string, t: string)
    ensures Contains(s, t) <==> exists i :: OccursAt(s, t, i)
  {
    if Contains(s, t) {
      var i := ContainsImpliesOccurs(s, t);
    }
    if exists i :: OccursAt(s, t, i) {
      var i :| OccursAt(s, t, i);
      OccursImpliesContains(s, t, i);
    }
  }

  /** An occurrence inside `b` is still an occurrence inside `a + b`. */
  lemma ContainsInSuffix(a: string, b: string, t: string)
    requires Contains(b, t)
    ensures Contains(a + b, t)
  {
    var i := ContainsImpliesOccurs(b, t);
    assert (a + b)[|a| + i..|a| + i + |t|] == b[i..i + |t|];
    OccursImpliesContains(a + b, t, |a| + i);
  }

  predicate IsDigit(c: char) {
    '0' <= c <= '9'
  }

  function DigitValue(c: char): nat
    requires IsDigit(c)
  {
    c as int - '0' as int
  }

  function DigitChar(d: nat): (c: char)
    requires d < 10
    ensures IsDigit(c) && DigitValue(c) == d
  {
    ('0' as int + d) as char
  }

  /** Decimal digits of `n`, most significant first, without leading zeros. */
  function NatToDigits(n: nat): (s: string)
    ensures |s| > 0 && IsDigit(s[0])
    ensures forall k :: 0 <= k < |s| ==> IsDigit(s[k])
    ensures |s| > 1 ==> s[0] != '0'
  {
    if n < 10 then [DigitChar(n)] else NatToDigits(n / 10) + [DigitChar(n % 10)]
  }

  /** Python `str(i)` and JavaScript `String(i)` for an integer. */
  function IntToDecimal(i: int): string {
    if i < 0 then "-" + NatToDigits(-i) else NatToDigits(i)
  }

  /** Glue `parts` together with `sep` between neighbours. */
  function Join(parts: seq<string>, sep: string): string {
    if |parts| == 0 then ""
    else if |parts| == 1 then parts[0]
    else parts[0] + sep + Join(parts[1..], sep)
  }
}

=== FILE: web_app.dfy ===
/**
 * The web app (`app.py`): the `/ask` endpoint, the legal pages' Markdown
 * loading, and the server's port setting.
 */
module WebApp {
  import opened Wrappers
  import opened Json
  import opened Python
  import opened Flask
  import MobileApi

  /** The answer given in place of any failure of the completion call. */
  const FallbackAnswer: string :=
    "Une erreur s'est produite lors de la communication avec l'API OpenAI. Veuillez vérifier votre clé API et votre connexion réseau."

  const NoQuestion: HttpReply := HttpReply(400, [], Some(JObject([("error", JString("Aucune question fournie."))])))

  /**
   * What `/ask` does: reply, or raise out of the view. The body is read and
   * the question extracted before the `try`, so a body nested too deeply to
   * parse, and one that is a non-empty array, a number or a string (where
   * `data.get` raises), make Flask answer with its own 500 page.
   */
  datatype AskOutcome = Replied(reply: HttpReply) | Crashed

  /** `POST /ask`. */
  function Ask(body: RequestBody, upstream: Upstream): (r: AskOutcome)
    ensures r.Crashed? <==> !ReadsObject(body)
    ensures body.TooDeep? ==> r.Crashed?
    ensures r == Replied(NoQuestion) <==> ReadsObject(body) && BlankQuestion(RequestData(body).value.members)
    ensures ReadsObject(body) && !BlankQuestion(RequestData(body).value.members) ==>
              r == Replied(HttpReply(200, [], Some(JObject([("answer", JString(
                     match upstream
                     case Completed(content) => Strip(content)
                     case Raised(_) => FallbackAnswer))]))))
  {
    match RequestData(body)
    case None => Crashed
    case Some(data) =>
      if !data.JObject? then Crashed
      else
        var question := QuestionOf(data.members);
        QuestionEmptyIffBlank(data.members);
        if question == "" then Replied(NoQuestion)
        else
          var answer := match upstream
            case Completed(content) => Strip(content)
            case Raised(_) => FallbackAnswer;
          Replied(HttpReply(200, [], Some(JObject([("answer", JString(answer))]))))
  }

  /**
   * Every non-blank question gets a 200 whatever the completion service
   * does; the answer is empty only when a completion's content is blank.
   */
  lemma AskNeverFailsUpstream(body: RequestBody, upstream: Upstream)
    requires ReadsObject(body) && !BlankQuestion(RequestData(body).value.members)
    ensures Ask(body, upstream).Replied? && Ask(body, upstream).reply.status == 200
    ensures Ask(body, upstream).reply.body.value.members[0].1.s == "" <==>
              upstream.Completed? && forall k :: 0 <= k < |upstream.content| ==> IsSpace(upstream.content[k])
  {
    if upstream.Completed? {
      StripEmptyIffAllSpace(upstream.content);
    }
  }

  /**
   * A mistyped body stops `/ask` before the completion call, where the
   * mobile chat, which reads it inside its `try`, answers `INTERNAL_ERROR`.
   */
  lemma MistypedBodyCrashes(items: seq<Json>, upstream: Upstream, now: string)
    requires items != []
    ensures Ask(Parsed(JArray(items)), upstream) == Crashed
    ensures MobileApi.Chat(MobileApi.Post, Parsed(JArray(items)), upstream, now) == MobileApi.UnexpectedError
  {
    assert PyTruthy(JArray(items));
    assert RequestData(Parsed(JArray(items))) == Some(JArray(items));
  }

  /**
   * A body nested past the recursion limit never reaches a handler's own
   * logic: `/ask` crashes, the mobile chat answers `INTERNAL_ERROR` and the
   * feedback endpoint `FEEDBACK_ERROR`, each before the body is looked at.
   */
  lemma DeepBodyFails(upstream: Upstream, now: string)
    ensures Ask(TooDeep, upstream) == Crashed
    ensures MobileApi.Chat(MobileApi.Post, TooDeep, upstream, now) == MobileApi.UnexpectedError
    ensures var r := MobileApi.Feedback(TooDeep, now);
            r.status == 500 && MobileApi.CodeOf(r) == Some("FEEDBACK_ERROR")
  {
  }

  // ---------------------------------------------------------------------
  // legal pages

  /** What reading a file gives: its text, or the error `open` raises. */
  datatype FileOutcome = Contents(text: string) | FileNotFound | OtherIoError

  const Unavailable: string := "<p>Contenu non disponible.</p>"

  /**
   * `load_markdown_file`: the rendered page, the fixed paragraph when the
   * file is missing, and any other error passed on (`None`) to the caller.
   * `render` stands for the Markdown converter.
   */
  function LoadMarkdown(file: FileOutcome, render: string -> string): (r: Option<string>)
    ensures r.None? <==> file.OtherIoError?
    ensures file.FileNotFound? ==> r == Some(Unavailable)
    ensures file.Contents? ==> r == Some(render(file.text))
  {
    match file
    case Contents(text) => Some(render(text))
    case FileNotFound => Some(Unavailable)
    case OtherIoError => None
  }

  // ---------------------------------------------------------------------
  // server settings

  const DefaultPort: int := 5000

  /**
   * The `PORT` setting: unset or empty gives 5000, a number is used as is,
   * and anything `int` rejects falls back to 5000.
   */
  function Port(env: Option<string>): (port: int)
    ensures env.None? || env == Some("") ==> port == DefaultPort
    ensures env.Some? && ParseInt(env.value).Some? ==> port == ParseInt(env.value).value
    ensures env.Some? && ParseInt(env.value).None? ==> port == DefaultPort
  {
    match env
    case None => DefaultPort
    case Some(text) =>
      if text == "" then DefaultPort
      else
        match ParseInt(text)
        case Some(n) => n
        case None => DefaultPort
  }

  /** A port written as a number within the digit limit, with whitespace `int()` skips around it, is the port served. */
  lemma PortRoundTrip(n: int, pad1: string, pad2: string)
    requires DigitsOf(n) <= MaxStrDigits
    requires forall k :: 0 <= k < |pad1| ==> IsIntSpace(pad1[k])
    requires forall k :: 0 <= k < |pad2| ==> IsIntSpace(pad2[k])
    ensures Port(Some(pad1 + Text.IntToDecimal(n) + pad2)) == n
  {
    ParseIntRoundTrip(n, pad1, pad2);
  }

  /** A number of more than `MaxStrDigits` digits makes `int()` raise, so the fallback is served. */
  lemma PortTooLongFallsBack(n: int)
    requires DigitsOf(n) > MaxStrDigits
    ensures Port(Some(Text.IntToDecimal(n))) == DefaultPort
  {
    var d := Text.IntToDecimal(n);
    DecimalEdges(n);
    StripClean(d);
    ParseSignedTooLong(n);
  }

  /** An information separator in `PORT` makes `int()` raise, so the fallback is served. */
  lemma PortSeparatorFallsBack(n: int)
    ensures Port(Some("\U{1C}" + Text.IntToDecimal(n))) == DefaultPort
  {
    var text := "\U{1C}" + Text.IntToDecimal(n);
    assert IsSeparator(text[0]);
  }
}

=== FILE: worker.dfy ===
/**
 * The worker as one object: the listeners of `static/sw.js` behind a single
 * dispatch over the events the host delivers, and a run over a sequence of
 * such events sharing one cache store.
 */
module Worker {
  import opened Wrappers
  import opened Json
  import opened Fetch
  import opened CacheStore
  import opened Strategies
  import opened Lifecycle

  /** An event the host delivers, with the outcomes of the I/O it will cause. */
  datatype Event =
    | InstallEvent(openFails: bool, assets: string -> NetOutcome)
    | ActivateEvent
    | FetchEvent(request: Request, lookupThrows: bool, net: NetOutcome)
    | MessageEvent(data: Option<Json>)
    | PushEvent(payload: Option<string>)
    | ClickEvent(action: string)
    | SyncEvent(tag: string)

  /** What one event does: the new store and what the worker asks of the host. */
  datatype Effects = Effects(
    store: Store,
    reply: Reply,
    skipWaiting: bool,
    notification: Option<Notification>,
    opensWindow: Option<string>)

  /** Deliver one event to its listener. */
  function Step(store: Store, origin: string, e: Event): (fx: Effects)
    ensures WellFormed(store) ==> WellFormed(fx.store)
    // only install, activate and fetch touch the store; only activate deletes
    ensures !(e.InstallEvent? || e.ActivateEvent? || e.FetchEvent?) ==> fx.store == store
    ensures !e.ActivateEvent? ==> OnlyTouches(store, fx.store, CurrentGeneration)
    ensures e.ActivateEvent? ==> forall g :: g in fx.store ==> g.name == CurrentGeneration
    // replies come from fetch only, and a GET is always handled
    ensures !e.FetchEvent? ==> fx.reply == NotHandled
    ensures e.FetchEvent? ==> (fx.reply.NotHandled? <==> e.request.verb != "GET")
  {
    match e
    case InstallEvent(openFails, assets) =>
      var r := Install(store, origin, openFails, assets);
      Effects(r.store, NotHandled, r.skipWaiting, None, None)
    case ActivateEvent =>
      Effects(Activate(store), NotHandled, false, None, None)
    case FetchEvent(request, lookupThrows, net) =>
      var h := HandleFetch(store, origin, request, lookupThrows, net);
      Effects(h.store, h.reply, false, None, None)
    case MessageEvent(data) =>
      Effects(store, NotHandled, SkipWaitingRequested(data), None, None)
    case PushEvent(payload) =>
      Effects(store, NotHandled, false, Some(PushNotification(payload)), None)
    case ClickEvent(action) =>
      Effects(store, NotHandled, false, None, NotificationClick(action).opensWindow)
    case SyncEvent(_) =>
      Effects(store, NotHandled, false, None, None)
  }

  /** What an event asks of the host: `skipWaiting`, a notification, a window. */
  lemma StepRequests(store: Store, origin: string, e: Event)
    ensures var fx := Step(store, origin, e);
            && (fx.skipWaiting <==> e.InstallEvent? || (e.MessageEvent? && SkipWaitingRequested(e.data)))
            && (fx.notification.Some? <==> e.PushEvent?)
            && (fx.opensWindow.Some? ==> e.ClickEvent? && e.action == "explore")
  {
    match e
    case InstallEvent(openFails, assets) =>
      assert Install(store, origin, openFails, assets).skipWaiting;
    case _ =>
  }

  /**
   * Deliver `events` in order. Once an activation has run, the store never
   * again holds a generation other than the current one, and every GET
   * fetch was handled (possibly with no response, a network error to the page).
   */
  method Run(store: Store, origin: string, events: seq<Event>) returns (final: Store, replies: seq<Reply>)
    requires WellFormed(store)
    ensures WellFormed(final)
    ensures |replies| == |events|
    ensures forall i :: 0 <= i < |events| ==> Answered(events[i], replies[i])
    ensures (exists i :: 0 <= i < |events| && events[i].ActivateEvent?) ==>
              forall g :: g in final ==> g.name == CurrentGeneration
    ensures forall g :: g in final && g.name != CurrentGeneration ==> g in store
  {
    final := store;
    replies := [];
    var activated := false;
    for i := 0 to |events|
      invariant |replies| == i
      invariant forall j :: 0 <= j < i ==> Answered(events[j], replies[j])
      invariant activated <==> exists j :: 0 <= j < i && events[j].ActivateEvent?
      invariant RunInvariant(store, final, activated)
    {
      var fx := Step(final, origin, events[i]);
      StepKeepsRunInvariant(store, final, origin, events[i], activated);
      assert Answered(events[i], fx.reply);
      final := fx.store;
      replies := replies + [fx.reply];
      if events[i].ActivateEvent? {
        activated := true;
      }
    }
  }

  /** The worker answers an event exactly when it is a GET fetch. */
  predicate Answered(e: Event, r: Reply) {
    r.NotHandled? <==> !(e.FetchEvent? && e.request.verb == "GET")
  }

  /**
   * What a run keeps: a well-formed store, only current generations once
   * activated, and no generation under another name that was not there at
   * the start.
   */
  ghost predicate RunInvariant(initial: Store, s: Store, activated: bool) {
    && WellFormed(s)
    && (activated ==> forall g :: g in s ==> g.name == CurrentGeneration)
    && (forall g :: g in s && g.name != CurrentGeneration ==> g in initial)
  }

  /** One event keeps the run invariant, with the activation flag raised by an activation. */
  lemma StepKeepsRunInvariant(initial: Store, s: Store, origin: string, e: Event, activated: bool)
    requires RunInvariant(initial, s, activated)
    ensures RunInvariant(initial, Step(s, origin, e).store, activated || e.ActivateEvent?)
  {
    var s' := Step(s, origin, e).store;
    if !e.ActivateEvent? {
      OnlyTouchesKeepsOthers(s, s', CurrentGeneration);
    }
  }

  /**
   * Install with the two-asset manifest both served, then fetch one of
   * them: it comes from the cache, whatever the network would do, and the
   * store is left as the install made it.
   */
  lemma InstalledAssetIsServedFromCache(a: string, b: string, ra: Response, rb: Response,
                                        assets: string -> NetOutcome, net: NetOutcome, destination: string)
    requires a != b && assets(a) == Delivered(ra) && assets(b) == Delivered(rb)
    requires AddAllAccepts(assets(a)) && AddAllAccepts(assets(b))
    requires Route(Request("GET", a, destination)) == CacheFirst
    ensures var s := InstallAssets([], [a, b], false, assets).store;
            HandleFetch(s, "", Request("GET", a, destination), false, net) == Handled(FromCache(ra), s)
  {
    var s := InstallAssets([], [a, b], false, assets).store;
    InstallTwoAssets(a, b, ra, rb, assets);
    var k := IndexOf(s, CurrentGeneration).value;
    MatchFirst(s, a, k);
  }
}

=== FILE: wrappers.dfy ===
/** The optional-value wrapper shared by every module of the model. */
module Wrappers {

  /** An optional value: a JavaScript `undefined`, a Python `None` or a missing key. */
  datatype Option<+T> = None | Some(value: T) {

    /** The value, or `default` when there is none. */
    function GetOr(default: T): T {
      match this
      case Some(v) => v
      case None => default
    }
  }
}
